=== FILE: README.md ===
# sheet — sprite-sheet layout and Luau module, modelled in Dafny

`sheet` packs a directory of icon images into one grid-shaped sprite sheet. It also
writes a Luau module that maps each icon's name to its rectangle in the sheet. This
project models the program's core from `src/main.rs`:

- `create_spritesheet`, with its four parts:
  - grid sizing: `columns = ceil(sqrt(n))` and `rows = ceil(n / columns)`;
  - allocation of a transparent sheet sized from the first icon;
  - unscaled compositing of icon `i` into cell `(i mod columns, i div columns)`;
  - one `IconInfo` record per icon.
- The `IconInfo` record itself.
- The text `generate_luau_module` writes.
- The early stop in `main` when no icon files were found.

The model proves these properties:

- The grid is the least near-square one that holds every icon.
- Record `i` names the stem of path `i` and sits at the origin of the cell its pixels went to.
- Records lie inside the sheet and never overlap, whatever the icons' sizes.
- When every icon has the first icon's size, every icon pixel lands at its record's offset, and unused cells stay transparent.
- The layout fails exactly at the first icon that cannot be decoded, does not fit, or has no file stem.
- The emitted module reads back, through an independent parser, as exactly the time stamp and records it was written from.

Modules, one per file:

| file | module | what it holds |
|---|---|---|
| `results.dfy` | `Results` | `Option` and `Result` |
| `pixels.dfy` | `Pixels` | RGBA pixels, images, `ImageBuffer::new`, `put_pixel`, the per-icon copy loop |
| `grid.dfy` | `GridMath` | integer ceiling square root, column and row counts, cell geometry |
| `paths.dfy` | `Paths` | `Path::file_name` and `Path::file_stem` for `/`-separated paths |
| `spritesheet.dfy` | `SheetLayout` | `IconFile`, `IconInfo`, `create_spritesheet` and its properties |
| `decimal.dfy` | `Decimal` | decimal text of unsigned integers, as `{}` formats a `u32`, and its inverse |
| `luau_module.dfy` | `LuauModule` | the module's lines and file text, and a parser proved inverse to them |
| `pipeline.dfy` | `Pipeline` | `main`'s flow from sorted icon list to sheet and module text |

Modelling choices:

- An input icon is an `IconFile`: its path, and what decoding yields (`None` when `image::open` fails).
- The failures that end the program become a `Failure` value:
  - `DecodeFailed(i)` is the error from `image::open`, which `?` returns;
  - `PixelOutOfBounds(i)` is a panic in `put_pixel`;
  - `MissingStem(i)` is a panic in `file_stem().unwrap()`.
- The layout is total: it makes no uniform-size assumption. Uniform size is the hypothesis of the layout lemmas.
- The time stamp is a parameter. The file write is the module's text.

## Model

| member | source | states |
|---|---|---|
| Pixels.Blank | src/main.rs:55 | the new sheet has the requested width and height and every pixel is transparent zero |
| Pixels.PutPixel | src/main.rs:64 | writing succeeds exactly when (x, y) is inside the image; it sets that pixel and leaves every other pixel and the size unchanged |
| Pixels.PasteRowPrefix | src/main.rs:63-64 | after the first i pixels of icon row j are copied, each copied pixel holds the icon's pixel and all others are unchanged; it fails exactly when a copied pixel would leave the sheet |
| Pixels.PasteRows | src/main.rs:63-65 | after the first j rows of the icon are copied, each copied pixel holds the icon's pixel at the same offset and all other pixels are unchanged; it fails exactly when a non-empty row would leave the sheet |
| Pixels.Composite | src/main.rs:63-65 | copying an icon to (ox, oy) fails exactly when a non-empty icon does not fit; otherwise every covered pixel is the icon's pixel at the same offset and every uncovered pixel is unchanged |
| GridMath.Columns | src/main.rs:49 | the column count is the least c with c * c >= n, so at least 1 as soon as there is an icon |
| GridMath.Rows | src/main.rs:50 | for n >= 1 icons the row count r is the least whose r full rows hold them: r * columns >= n > (r - 1) * columns |
| SheetLayout.SheetGrid | src/main.rs:48-55 | the grid has at least one column; its columns and rows come from the icon count and its cell size is the first icon's, as CreateSpritesheet states for the sheet |
| GridMath.CeilSqrt | src/main.rs:49 | the result c is the least number whose square is at least n |
| GridMath.ColumnsIsLeast | src/main.rs:49 | the column count is no larger than any c with c * c >= n |
| GridMath.RowsIsLeast | src/main.rs:50 | the row count is the least r whose r full rows hold n icons |
| GridMath.GridShape | src/main.rs:48-50 | for n >= 1 the grid has room for all icons, no row is wholly empty, and rows <= columns <= rows + 1 |
| GridMath.GridExamples | src/main.rs:48-50 | 1 icon gives 1 x 1, 3 give 2 x 2, 4 give 2 x 2, 5 give 3 x 2 |
| GridMath.Grid.OriginX | src/main.rs:60 | the left edge of cell i, (i mod columns) * cell width; it has no contract of its own: LayoutRecords states this formula for record i, and PlaceIcon pastes the icon at that same origin |
| GridMath.Grid.OriginY | src/main.rs:61 | the top edge of cell i, (i div columns) * cell height; it has no contract of its own: LayoutRecords states this formula for record i, and PlaceIcon pastes the icon at that same origin |
| GridMath.CellsDisjoint | src/main.rs:60-61 | a pixel lies in at most one cell |
| GridMath.CellInside | src/main.rs:55-61 | each cell of the columns x rows grid lies inside the sheet |
| Paths.TrimEnd | src/main.rs:67 | it drops only trailing separators and `.` components (each dropped dot follows a separator), leaving a prefix of the path that ends in neither |
| Paths.TrimEndUnique | src/main.rs:67 | those properties determine the trimmed path: any candidate that has them is the trimmed path |
| Paths.FileName | src/main.rs:67 | a file name is never empty, `.` or `..`, and holds no separator |
| Paths.FileNameOfTrimmed | src/main.rs:67 | the file name is the last segment of the path once trailing separators and `.` components are dropped |
| Paths.LastName | src/main.rs:67 | only a normal final segment is a name: never empty, `.` or `..`, and free of separators; FileNameOfTrimmed shows FileName reads it off the trimmed path |
| Paths.FileNameShape | src/main.rs:67 | a file name is a non-empty final segment free of separators, neither `.` nor `..` |
| Paths.StemShape | src/main.rs:67 | a stem is a non-empty prefix of the name; it is the whole name exactly when no dot follows the first character, and otherwise only a dot and a dot-free extension follow it |
| Paths.StemOf | src/main.rs:67 | splitting a file name at its last dot, except at a leading dot; it has no contract of its own, and StemShape characterizes it completely |
| Paths.FileStem | src/main.rs:67 | a stem, where there is one, is non-empty and holds no separator; `None` is where `unwrap` panics |
| Paths.StemWithinPath | src/main.rs:67 | a stem contains only characters of its path |
| Paths.PlainFileStem | src/main.rs:67 | the stem of `base.ext` is `base` |
| Paths.StemExamples | src/main.rs:67 | `icons/a.png` has stem `a`; `icons/a.tar.gz` has stem `a.tar` |
| Paths.StemNestedExample | src/main.rs:67 | `icons/sub/a.png` has stem `a`: only the last component counts, so icons in different directories can get the same name, and each still gets its own record |
| Paths.StemHiddenExample | src/main.rs:67 | `icons/.hidden` has stem `.hidden`: a leading dot is not an extension |
| Paths.StemTrailingExample | src/main.rs:67 | `icons/` and `icons/.` have stem `icons` |
| Paths.NoStemExamples | src/main.rs:67 | `icons/..`, `/`, `.` and the empty path have no stem, so the source's `unwrap` would panic |
| SheetLayout.CreateSpritesheet | src/main.rs:47-78 | an undecodable first icon fails at index 0; on success there is one record per icon and the sheet is columns * first width by rows * first height; a failure names an icon of the input |
| SheetLayout.PlaceIcons | src/main.rs:58-75 | after k loop passes there are k records and the sheet keeps the grid's size; a failure names one of the first k icons |
| SheetLayout.PlaceIcon | src/main.rs:59-74 | one pass keeps the sheet's size and appends exactly one record after the earlier ones, naming the icon's stem at its cell origin, one cell in size; a failure names this icon |
| SheetLayout.IconFailure | src/main.rs:59-67 | an icon's own failure names that icon, and an icon without one decodes and has a stem |
| SheetLayout.PlaceIconsRecords | src/main.rs:58-74 | whatever the icons' sizes, after k successful passes record i is icon i's stem at the origin of cell i, one cell in size |
| SheetLayout.LayoutRecords | src/main.rs:58-74 | every successful layout, uniform or not, records icon i under its stem at x = (i mod columns) * first width and y = (i div columns) * first height, with the first icon's width and height |
| SheetLayout.PlaceIconAgrees | src/main.rs:59-67 | a pass fails exactly when the icon's own check fails, and with the same failure |
| SheetLayout.PlaceIconsOutcome | src/main.rs:58-75 | the loop succeeds exactly when no icon among the first k fails its own check; otherwise it reports the first icon that does |
| SheetLayout.CreateSpritesheetOutcome | src/main.rs:52-78 | the layout succeeds exactly when the first icon decodes and every icon passes its own check; otherwise it reports the first failing icon |
| SheetLayout.PlaceUniform | src/main.rs:58-75 | with icons of one size that all have stems, every loop prefix succeeds and the sheet shows each placed icon in its cell, with the right records, transparent elsewhere |
| SheetLayout.UniformLayoutRecords | src/main.rs:58-74 | for uniform, named input: one record per icon in input order, naming that icon's stem, at x = (i mod columns) * width and y = (i div columns) * height, one icon in size |
| SheetLayout.LayoutRecordsDisjoint | src/main.rs:55-61 | in every successful layout, whatever the icons' sizes, every record rectangle lies inside the sheet and two records never share a pixel |
| SheetLayout.UniformLayoutPixels | src/main.rs:60-64 | for uniform, named input the sheet pixel at offset (px, py) from record i's origin is icon i's pixel (px, py) |
| SheetLayout.UniformLayoutBackground | src/main.rs:55-64 | for uniform, named input every pixel outside all records is transparent, in particular every pixel of an unused trailing cell |
| SheetLayout.ThreeIconScenario | src/main.rs:47-78 | three 16 x 16 icons with stems a, b, c give a 32 x 32 sheet and records a at (0, 0), b at (16, 0), c at (0, 16) |
| SheetLayout.SingleIconScenario | src/main.rs:47-78 | one 8 x 8 icon gives an 8 x 8 sheet equal to the icon and one record at (0, 0) |
| Decimal.Render | src/main.rs:88-89 | the text `{}` writes for a `u32`: non-empty and all digits; ValueOfRender and RenderOfValue show it is inverse to reading the digits back |
| Decimal.ValueOfRender | src/main.rs:88-89 | reading the decimal text of n gives n back |
| Decimal.RenderCanonical | src/main.rs:88-89 | decimal text is non-empty digits with no leading zero, and starts with `0` only for zero |
| Decimal.RenderOfValue | src/main.rs:88-89 | canonical digit text is the decimal text of its value |
| Decimal.RenderInjective | src/main.rs:88-89 | two numbers have the same decimal text exactly when they are equal |
| LuauModule.Header | src/main.rs:82-83 | the header comment reads back as exactly the time stamp it carries, and is a single line when the time stamp is |
| LuauModule.Entry | src/main.rs:86-90 | an assignment line is a single line when the record's name is; EntryRoundTrip and EntrySound show it reads back as exactly its record |
| LuauModule.Entries | src/main.rs:85-91 | one line per record, in record order, each the record's assignment line; duplicates are kept |
| LuauModule.Lines | src/main.rs:83-93 | when neither the time stamp nor any name holds a line break, no line of the module does; RoundTrip shows the lines parse to (time stamp, records) exactly when they are the lines written from them |
| LuauModule.ModuleText | src/main.rs:83-93 | the file is the header, a blank line and the table declaration, then one line per record, then a blank line and `return Icons`, each write ending in a newline |
| LuauModule.EntryRoundTrip | src/main.rs:86-90 | an entry line parses back to the record it was written from, whatever its name holds |
| LuauModule.EntrySound | src/main.rs:86-90 | a line that parses as a record is exactly that record's entry line |
| LuauModule.EntriesRoundTrip | src/main.rs:85-91 | the entry lines parse back to the record list, in order |
| LuauModule.EntriesSound | src/main.rs:85-91 | lines that parse as records are exactly those records' entry lines |
| LuauModule.RoundTrip | src/main.rs:83-93 | a line sequence parses to (time stamp, records) exactly when it is the module written from them |
| LuauModule.LinesInjective | src/main.rs:83-93 | different time stamps or record lists give different modules |
| LuauModule.SplitText | src/main.rs:83-93 | lines without newlines are recovered from the newline-terminated text |
| LuauModule.ModuleTextRoundTrip | src/main.rs:80-95 | when the time stamp and names have no newline, the file content parses back to the time stamp and records |
| Pipeline.Run | src/main.rs:13-21 | a run stops with no output files exactly when there are no icons; it produces a sheet and module exactly when the layout succeeds, the sheet being the layout's result and the module text the one written from its records; a failure is the layout's, that of the first failing icon |
| Pipeline.RunModuleReadsBack | src/main.rs:19-20 | the module written by a successful run parses back to the time stamp and the sheet's records |
| Pipeline.RunUniform | src/main.rs:14-20 | uniform, named input whose paths and time stamp have no newline produces a module that parses to one record per icon, with its stem, at its cell origin, one icon in size |

## Left out

- The two console messages `main` prints are not modelled: the stderr diagnostic for an empty icon list (src/main.rs:15) and the success line (src/main.rs:23).
- `read_input` (src/main.rs:27-33) is not modelled. It only prompts on stdin and stdout.
- `collect_icon_files` (src/main.rs:35-45) is not modelled, including the directory walk and its sort. The model takes the already sorted icon list as its input.
- Image decoding and encoding are library calls, so neither is modelled:
  - `image::open` becomes `IconFile.decoded`.
  - `spritesheet.save` is not modelled.
- The first icon is opened twice (src/main.rs:52, 59). The model uses one decode result for both opens, so a decoder that answers differently the second time is not modelled.
- The module's text is modelled, but the file itself is not. Neither `File::create` nor its write errors are.
- `chrono::Local::now()` is not modelled. The time stamp is a parameter, and its `%Y-%m-%d %H:%M:%S` format is not checked.
- GridMath.Columns: the source computes `(n as f32).sqrt().ceil()` and `ceil(n as f32 / columns as f32)` in floating point. The model uses exact integers. The two agree while n is exactly representable as an f32, that is below 2^24 icons; larger counts are not modelled.
- SheetLayout.CreateSpritesheet: the model uses unbounded naturals, so it does not model `u32` overflow. That covers `icon_width * icons_per_row`, `icon_height * rows` and `x + i`, which the source computes in `u32`.
- SheetLayout.CreateSpritesheet: `to_str().unwrap()` on the stem cannot fail here, because model strings are character sequences and always valid UTF-8.
- Paths.FileName: only `/` is a separator. Windows prefixes and `\` are not modelled.
- Paths.FileName: the model drops trailing separators and `.` components, as `Path::components` does. It does not collapse repeated inner separators, which cannot change the last component.
- Pixels.PutPixel: pixels are four 0..255 channels, as in `Rgba<u8>`. Colour conversion from the decoded image is part of decoding, which is not modelled.
- LuauModule.Entry writes names without escaping, exactly as the source does. A stem that contains `'` or a line break gives a module that is not valid Luau. The round trip holds anyway, because the parser reads the numbers from the right. ModuleTextRoundTrip assumes the time stamp and names have no line break, since the file's lines cannot be recovered otherwise.
- Icons of a size other than the first's are not rejected. Each is pasted unscaled at its cell origin (src/main.rs:60-64), so a larger icon overwrites pixels of the neighbouring cells and a smaller one leaves the rest of its cell as the sheet already held it: transparent, or pixels an earlier, larger icon spilled there. The pixel and background properties are therefore stated only for icons of one size. `put_pixel` panics only for a pixel outside the whole sheet. Pixels.Composite models exactly that: it fails only when the icon leaves the sheet, and otherwise writes every covered pixel, whichever cell it lies in.

=== FILE: decimal.dfy ===
/**
  Decimal text of unsigned integers, as Rust's `Display` writes a `u32`: the digits of
  the value, most significant first, with no sign and no leading zero. `Value` reads
  such text back.
 */
module Decimal {

  predicate IsDigit(c: char) {
    '0' <= c <= '9'
  }

  predicate AllDigits(s: string) {
    forall i :: 0 <= i < |s| ==> IsDigit(s[i])
  }

  /** Canonical decimal text: digits only, non-empty, and no leading zero unless it is "0". */
  predicate Canonical(s: string) {
    && |s| >= 1
    && AllDigits(s)
    && (s[0] == '0' ==> |s| == 1)
  }

  function DigitChar(d: nat): (c: char)
    requires d < 10
    ensures IsDigit(c)
    ensures DigitValue(c) == d
  {
    ['0', '1', '2', '3', '4', '5', '6', '7', '8', '9'][d]
  }

  function DigitValue(c: char): nat
    requires IsDigit(c)
  {
    (c as int) - ('0' as int)
  }

  /** The decimal text of n. */
  function Render(n: nat): (s: string)
    ensures |s| >= 1 && AllDigits(s)
    decreases n
  {
    if n < 10 then [DigitChar(n)] else Render(n / 10) + [DigitChar(n % 10)]
  }

  /** The number a string of digits denotes; the empty string denotes 0. */
  function Value(s: string): nat
    requires AllDigits(s)
    decreases |s|
  {
    if |s| == 0 then 0 else Value(s[..|s| - 1]) * 10 + DigitValue(s[|s| - 1])
  }

  /** Reading the text of n gives back n. */
  lemma {:induction false} ValueOfRender(n: nat)
    ensures Value(Render(n)) == n
    decreases n
  {
    if n >= 10 {
      var s := Render(n);
      assert s[..|s| - 1] == Render(n / 10);
      ValueOfRender(n / 10);
    }
  }

  /** The text of n is canonical: it starts with a zero only when it is "0". */
  lemma {:induction false} RenderCanonical(n: nat)
    ensures Canonical(Render(n))
    ensures Render(n)[0] == '0' <==> n == 0
    decreases n
  {
    if n >= 10 {
      RenderCanonical(n / 10);
      assert Render(n)[0] == Render(n / 10)[0];
    }
  }

  /** Rendering the value of canonical text gives the same text back. */
  lemma {:induction false} RenderOfValue(s: string)
    requires Canonical(s)
    ensures Render(Value(s)) == s
    decreases |s|
  {
    if |s| > 1 {
      var p := s[..|s| - 1];
      assert Canonical(p);
      RenderOfValue(p);
      ValueOfPositive(p);
      assert Value(s) / 10 == Value(p) && Value(s) % 10 == DigitValue(s[|s| - 1]);
      assert s == p + [s[|s| - 1]];
    }
  }

  /** Canonical text longer than one digit denotes a value of at least 1. */
  lemma ValueOfPositive(p: string)
    requires Canonical(p) && p[0] != '0'
    ensures Value(p) >= 1
    decreases |p|
  {
    if |p| > 1 {
      var q := p[..|p| - 1];
      assert q[0] == p[0];
      ValueOfPositive(q);
    }
  }

  /** Distinct numbers have distinct texts. */
  lemma RenderInjective(m: nat, n: nat)
    ensures Render(m) == Render(n) <==> m == n
  {
    ValueOfRender(m);
    ValueOfRender(n);
  }
}

=== FILE: grid.dfy ===
/**
  Grid sizing and cell geometry of the sprite sheet: how many columns and rows an
  icon count gets, and where cell i lies.
 */
module GridMath {

  /** The least c with c * c >= n: the integer reading of `(n as f32).sqrt().ceil()`. */
  function CeilSqrt(n: nat): (c: nat)
    ensures c * c >= n
    ensures c == 0 || (c - 1) * (c - 1) < n
  {
    CeilSqrtFrom(n, 0)
  }

  /** Searches upwards from c, every value below c being known too small. */
  function CeilSqrtFrom(n: nat, c: nat): (r: nat)
    requires c == 0 || (c - 1) * (c - 1) < n
    ensures r * r >= n
    ensures r == 0 || (r - 1) * (r - 1) < n
    decreases n - c
  {
    if c * c >= n then c
    else
      assert c < n by { if c > 0 { MulMonotone(1, c, c); } }
      CeilSqrtFrom(n, c + 1)
  }

  lemma MulMonotone(a: nat, b: nat, k: nat)
    requires a <= b
    ensures a * k <= b * k
  {
  }

  lemma SquareMonotone(a: nat, b: nat)
    requires a <= b
    ensures a * a <= b * b
  {
    MulMonotone(a, b, a);
    MulMonotone(a, b, b);
  }

  /** Euclidean division facts for the ceiling quotient q of n by c. */
  lemma CeilDiv(n: nat, c: nat)
    requires c >= 1
    ensures ((n + c - 1) / c) * c >= n
    ensures ((n + c - 1) / c) * c - c < n
  {
    var a := n + c - 1;
    var q := a / c;
    var r := a % c;
    assert a == q * c + r && 0 <= r < c;
  }

  /**
    Number of icons per row for n icons; at least one as soon as there is an icon. It is
    CeilSqrt under the source's name for the quantity, and repeats CeilSqrt's contract
    so that callers need not look through it.
   */
  function Columns(n: nat): (c: nat)
    ensures n >= 1 ==> c >= 1
    ensures c * c >= n && (c == 0 || (c - 1) * (c - 1) < n)
  {
    CeilSqrt(n)
  }

  /**
    Number of rows: `ceil(n / columns)`. With no icons the source's float division is 0 / 0,
    whose ceiling cast to u32 is 0.
   */
  function Rows(n: nat): (r: nat)
    ensures n >= 1 ==> r * Columns(n) >= n && r * Columns(n) - Columns(n) < n
  {
    var c := Columns(n);
    if c == 0 then 0
    else
      CeilDiv(n, c);
      (n + c - 1) / c
  }

  /** Columns(n) is the least c whose square holds n cells. */
  lemma ColumnsIsLeast(n: nat, c: nat)
    requires c * c >= n
    ensures Columns(n) * Columns(n) >= n
    ensures Columns(n) <= c
  {
    var k := Columns(n);
    if k > c {
      SquareMonotone(c, k - 1);
      assert false;
    }
  }

  /** Rows(n) is the least r such that r full rows of Columns(n) cells hold n icons. */
  lemma RowsIsLeast(n: nat, r: nat)
    requires n >= 1
    requires r * Columns(n) >= n
    ensures Rows(n) * Columns(n) >= n
    ensures Rows(n) <= r
  {
    var c := Columns(n);
    var q := Rows(n);
    CeilDiv(n, c);
    MulPred(q, c);
    if q > r {
      MulMonotone(r, q - 1, c);
      assert false;
    }
  }

  lemma MulPred(q: int, c: int)
    ensures (q - 1) * c == q * c - c
  {
  }

  /** With (c-1)^2 < n <= q * c, the row count q is at least c - 1. */
  lemma RowsNotTooFew(n: nat, c: nat, q: nat)
    requires c >= 1
    requires (c - 1) * (c - 1) < n <= q * c
    ensures c <= q + 1
  {
    assert (c - 2) * c + 1 == (c - 1) * (c - 1);
    if c > q + 1 {
      MulMonotone(q, c - 2, c);
      assert false;
    }
  }

  /**
    The grid the source picks for n >= 1 icons: it has room for all of them, no row is
    wholly empty, and it is near-square with the columns winning ties
    (columns - 1 <= rows <= columns).
   */
  lemma GridShape(n: nat)
    requires n >= 1
    ensures Columns(n) >= 1 && Rows(n) >= 1
    ensures Columns(n) * Rows(n) >= n
    ensures (Rows(n) - 1) * Columns(n) < n
    ensures Rows(n) <= Columns(n)
    ensures Columns(n) <= Rows(n) + 1
  {
    var c := Columns(n);
    var q := Rows(n);
    CeilDiv(n, c);
    MulPred(q, c);
    assert q * c >= n && (q - 1) * c < n;
    RowsIsLeast(n, c);
    RowsNotTooFew(n, c, q);
  }

  /** The worked grid sizes 1 -> 1 x 1, 3 -> 2 x 2, 4 -> 2 x 2, 5 -> 3 x 2. */
  lemma GridExamples()
    ensures Columns(1) == 1 && Rows(1) == 1
    ensures Columns(3) == 2 && Rows(3) == 2
    ensures Columns(4) == 2 && Rows(4) == 2
    ensures Columns(5) == 3 && Rows(5) == 2
  {
    ColumnsIsLeast(1, 1);
    ColumnsIsLeast(3, 2);
    ColumnsIsLeast(4, 2);
    ColumnsIsLeast(5, 3);
  }

  /** A columns x rows grid of cells, each cellWidth x cellHeight pixels. */
  datatype Grid = Grid(columns: nat, rows: nat, cellWidth: nat, cellHeight: nat)
  {
    function Width(): nat {
      columns * cellWidth
    }

    function Height(): nat {
      rows * cellHeight
    }

    /** Left edge of cell i: cells fill rows left to right, rows top to bottom. */
    function OriginX(i: nat): nat
      requires columns > 0
    {
      (i % columns) * cellWidth
    }

    /** Top edge of cell i. */
    function OriginY(i: nat): nat
      requires columns > 0
    {
      (i / columns) * cellHeight
    }

    predicate InCell(i: nat, x: int, y: int)
      requires columns > 0
    {
      OriginX(i) <= x < OriginX(i) + cellWidth && OriginY(i) <= y < OriginY(i) + cellHeight
    }
  }

  /** The grid of the sheet for n icons of the given size. */
  function GridFor(n: nat, cellWidth: nat, cellHeight: nat): (g: Grid)
    ensures n >= 1 ==> g.columns >= 1
  {
    Grid(Columns(n), Rows(n), cellWidth, cellHeight)
  }

  /** Two points in the strips [a*w, (a+1)*w) and [b*w, (b+1)*w) share a strip index. */
  lemma SameStrip(a: nat, b: nat, w: nat, x: int)
    requires a * w <= x < a * w + w
    requires b * w <= x < b * w + w
    ensures a == b
  {
    if a < b {
      MulMonotone(a + 1, b, w);
    } else if b < a {
      MulMonotone(b + 1, a, w);
    }
  }

  /** Distinct cells never share a pixel. */
  lemma CellsDisjoint(g: Grid, i: nat, j: nat, x: int, y: int)
    requires g.columns > 0
    requires g.InCell(i, x, y) && g.InCell(j, x, y)
    ensures i == j
  {
    SameStrip(i % g.columns, j % g.columns, g.cellWidth, x);
    SameStrip(i / g.columns, j / g.columns, g.cellHeight, y);
  }

  /** Every cell of the columns x rows grid lies inside the sheet. */
  lemma CellInside(g: Grid, i: nat)
    requires g.columns > 0
    requires i < g.columns * g.rows
    ensures g.OriginX(i) + g.cellWidth <= g.Width()
    ensures g.OriginY(i) + g.cellHeight <= g.Height()
  {
    var c := g.columns;
    MulMonotone(i % c + 1, c, g.cellWidth);
    assert i / c < g.rows by {
      if i / c >= g.rows {
        MulMonotone(g.rows, i / c, c);
        assert false;
      }
    }
    MulMonotone(i / c + 1, g.rows, g.cellHeight);
  }
}

=== FILE: luau_module.dfy ===
/**
  The Luau module that describes a sprite sheet: a header comment carrying the generation
  time, a table declaration, one assignment per icon record, and a return statement.
  `Parse` reads such a module back; the two are proved inverse to each other.
 */
module LuauModule {
  import opened Results
  import opened Decimal
  import opened SheetLayout

  // Written as short pieces so that facts about its characters stay cheap to prove.
  const HeaderStart := "--[[ module " + "generated from " + "ssheet.rs :: " + "generated at "
  const HeaderEnd := " ]]"
  const Declaration := "local Icons = {}"
  const Closing := "return Icons"
  const EntryStart := "Icons['"
  const EntryEnd := " }"
  const XLabel := "'] = { x = "
  const YLabel := ", y = "
  const WidthLabel := ", width = "
  const HeightLabel := ", height = "

  /** The comment line naming the generator and the time stamp, as passed in; it reads back as that time stamp. */
  function Header(timestamp: string): (line: string)
    ensures ParseHeader(line) == Some(timestamp)
    ensures NoNewline(timestamp) ==> NoNewline(line)
  {
    var line := HeaderStart + timestamp + HeaderEnd;
    assert line[..|HeaderStart|] == HeaderStart;
    assert line[|line| - |HeaderEnd|..] == HeaderEnd;
    assert line[|HeaderStart|..|line| - |HeaderEnd|] == timestamp;
    line
  }

  /** The inside of an entry: the name, then the four numbers, each after its tag. */
  function EntryBody(info: IconInfo): string {
    info.name + XLabel + Render(info.x) + YLabel + Render(info.y)
      + WidthLabel + Render(info.width) + HeightLabel + Render(info.height)
  }

  /**
    The assignment line for one icon record. The name is written without escaping, so
    the entry is a single line only when the name is.
   */
  function Entry(info: IconInfo): (line: string)
    ensures NoNewline(info.name) ==> NoNewline(line)
  {
    DigitsHaveNoNewline(Render(info.x));
    DigitsHaveNoNewline(Render(info.y));
    DigitsHaveNoNewline(Render(info.width));
    DigitsHaveNoNewline(Render(info.height));
    EntryStart + EntryBody(info) + EntryEnd
  }

  function Entries(infos: seq<IconInfo>): (lines: seq<string>)
    ensures |lines| == |infos|
    ensures forall i :: 0 <= i < |infos| ==> lines[i] == Entry(infos[i])
  {
    if infos == [] then [] else [Entry(infos[0])] + Entries(infos[1..])
  }

  /**
    The module as lines: header, blank, declaration, the entries in order, blank, return.
    When neither the time stamp nor any name holds a line break, no line does.
   */
  function Lines(timestamp: string, infos: seq<IconInfo>): (lines: seq<string>)
    ensures NoNewline(timestamp) && (forall i :: 0 <= i < |infos| ==> NoNewline(infos[i].name)) ==>
              forall i :: 0 <= i < |lines| ==> NoNewline(lines[i])
  {
    var lines := [Header(timestamp), "", Declaration] + Entries(infos) + ["", Closing];
    Parts(Header(timestamp), "", Declaration, Entries(infos), "", Closing);
    lines
  }

  /** Text of a sequence of lines, each one terminated by a newline. */
  function Text(lines: seq<string>): string {
    if lines == [] then "" else lines[0] + "\n" + Text(lines[1..])
  }

  /**
    The content of the module file: what the generator's three kinds of write produce, in
    order - the header with a blank line and the declaration, one line per record, then a
    blank line and the return statement, every write ending in a newline.
   */
  function ModuleText(timestamp: string, infos: seq<IconInfo>): (text: string)
    ensures text == (Header(timestamp) + "\n\n" + Declaration + "\n")
                    + Text(Entries(infos))
                    + ("\n" + Closing + "\n")
  {
    var head := [Header(timestamp), "", Declaration];
    var tail := ["", Closing];
    TextAppend(head + Entries(infos), tail);
    TextAppend(head, Entries(infos));
    TextOfHead(timestamp);
    TextOfTail();
    Text(Lines(timestamp, infos))
  }

  lemma TextCons(line: string, rest: seq<string>)
    ensures Text([line] + rest) == line + "\n" + Text(rest)
  {
    assert ([line] + rest)[1..] == rest;
  }

  lemma {:induction false} TextAppend(a: seq<string>, b: seq<string>)
    ensures Text(a + b) == Text(a) + Text(b)
    decreases |a|
  {
    if a != [] {
      var x := a[0] + "\n";
      assert a + b == [a[0]] + (a[1..] + b);
      TextCons(a[0], a[1..] + b);
      TextAppend(a[1..], b);
      assert Text(a + b) == x + (Text(a[1..]) + Text(b));
      assert a == [a[0]] + a[1..];
      TextCons(a[0], a[1..]);
      assert Text(a) == x + Text(a[1..]);
      assert x + (Text(a[1..]) + Text(b)) == (x + Text(a[1..])) + Text(b);
    } else {
      assert a + b == b;
    }
  }

  lemma TextOfHead(timestamp: string)
    ensures Text([Header(timestamp), "", Declaration]) == Header(timestamp) + "\n\n" + Declaration + "\n"
  {
    TextCons(Declaration, []);
    TextCons("", [Declaration]);
    assert [Header(timestamp), "", Declaration] == [Header(timestamp)] + ["", Declaration];
    TextCons(Header(timestamp), ["", Declaration]);
  }

  lemma TextOfTail()
    ensures Text(["", Closing]) == "\n" + Closing + "\n"
  {
    TextCons(Closing, []);
    TextCons("", [Closing]);
    assert ["", Closing] == [""] + [Closing];
  }

  // ---------------------------------------------------------------- reading back

  /** Number of decimal digits at the end of s. */
  function TrailingDigits(s: string): (t: nat)
    ensures t <= |s|
    ensures AllDigits(s[|s| - t..])
    ensures t < |s| ==> !IsDigit(s[|s| - t - 1])
    decreases |s|
  {
    if |s| == 0 || !IsDigit(s[|s| - 1]) then 0
    else
      var t := TrailingDigits(s[..|s| - 1]);
      DigitsExtend(s, t);
      t + 1
  }

  lemma DigitsExtend(s: string, t: nat)
    requires t < |s| && IsDigit(s[|s| - 1])
    requires AllDigits(s[..|s| - 1][|s| - 1 - t..])
    ensures AllDigits(s[|s| - (t + 1)..])
  {
    assert s[|s| - (t + 1)..] == s[..|s| - 1][|s| - 1 - t..] + [s[|s| - 1]];
  }

  /** Splits a canonical number off the end of s. */
  function StripNumber(s: string): Option<(string, nat)> {
    var t := TrailingDigits(s);
    var digits := s[|s| - t..];
    if Canonical(digits) then Some((s[..|s| - t], Value(digits))) else None
  }

  /** Splits a number, and the tag in front of it, off the end of s. */
  function StripField(s: string, tag: string): Option<(string, nat)> {
    match StripNumber(s)
    case None => None
    case Some((rest, n)) =>
      if |tag| <= |rest| && rest[|rest| - |tag|..] == tag
      then Some((rest[..|rest| - |tag|], n))
      else None
  }

  predicate EndsInNonDigit(tag: string) {
    |tag| >= 1 && !IsDigit(tag[|tag| - 1])
  }

  /** After a tag that does not end in a digit, the number written last is found again. */
  lemma StripFieldAppend(p: string, tag: string, n: nat)
    requires EndsInNonDigit(tag)
    ensures StripField(p + tag + Render(n), tag) == Some((p, n))
  {
    var rest := p + tag;
    assert rest[|rest| - 1] == tag[|tag| - 1];
    StripNumberAppend(rest, n);
    assert rest[|rest| - |tag|..] == tag;
    assert rest[..|rest| - |tag|] == p;
  }

  /** After text that does not end in a digit, the number written last is found again. */
  lemma StripNumberAppend(q: string, n: nat)
    requires EndsInNonDigit(q)
    ensures StripNumber(q + Render(n)) == Some((q, n))
  {
    var d := Render(n);
    var s := q + d;
    TrailingOfRender(q, d);
    assert s[|s| - |d|..] == d;
    assert s[..|s| - |d|] == q;
    RenderCanonical(n);
    ValueOfRender(n);
  }

  lemma TrailingOfRender(q: string, d: string)
    requires EndsInNonDigit(q) && AllDigits(d)
    ensures TrailingDigits(q + d) == |d|
    decreases |d|
  {
    var s := q + d;
    if d == [] {
      assert s == q;
    } else {
      assert s[..|s| - 1] == q + d[..|d| - 1];
      TrailingOfRender(q, d[..|d| - 1]);
    }
  }

  /** Whatever StripNumber accepts is some text followed by the canonical text of the number. */
  lemma StripNumberSound(s: string)
    requires StripNumber(s).Some?
    ensures s == StripNumber(s).value.0 + Render(StripNumber(s).value.1)
  {
    var t := TrailingDigits(s);
    var digits := s[|s| - t..];
    RenderOfValue(digits);
    assert s == s[..|s| - t] + digits;
  }

  /** Whatever StripField accepts is the text it would have been written from. */
  lemma StripFieldSound(s: string, tag: string)
    requires StripField(s, tag).Some?
    ensures s == StripField(s, tag).value.0 + tag + Render(StripField(s, tag).value.1)
  {
    StripNumberSound(s);
    var rest := StripNumber(s).value.0;
    assert rest == rest[..|rest| - |tag|] + tag;
  }

  /** Reads the inside of an entry, numbers from the right, the name being what is left. */
  function ParseBody(body: string): Option<IconInfo> {
    match StripField(body, HeightLabel)
    case None => None
    case Some((b1, h)) =>
      match StripField(b1, WidthLabel)
      case None => None
      case Some((b2, w)) =>
        match StripField(b2, YLabel)
        case None => None
        case Some((b3, y)) =>
          match StripField(b3, XLabel)
          case None => None
          case Some((name, x)) => Some(IconInfo(name, x, y, w, h))
  }

  function ParseEntry(line: string): Option<IconInfo> {
    if |EntryStart| + |EntryEnd| <= |line|
       && line[..|EntryStart|] == EntryStart
       && line[|line| - |EntryEnd|..] == EntryEnd
    then ParseBody(line[|EntryStart|..|line| - |EntryEnd|])
    else None
  }

  function ParseEntries(lines: seq<string>): Option<seq<IconInfo>> {
    if lines == [] then Some([])
    else
      match ParseEntry(lines[0])
      case None => None
      case Some(info) =>
        match ParseEntries(lines[1..])
        case None => None
        case Some(rest) => Some([info] + rest)
  }

  function ParseHeader(line: string): Option<string> {
    if |HeaderStart| + |HeaderEnd| <= |line|
       && line[..|HeaderStart|] == HeaderStart
       && line[|line| - |HeaderEnd|..] == HeaderEnd
    then Some(line[|HeaderStart|..|line| - |HeaderEnd|])
    else None
  }

  /** Reads a module back into its time stamp and its records. */
  function Parse(lines: seq<string>): Option<(string, seq<IconInfo>)> {
    if |lines| < 5 then None
    else if lines[1] != "" || lines[2] != Declaration
            || lines[|lines| - 2] != "" || lines[|lines| - 1] != Closing then None
    else
      match ParseHeader(lines[0])
      case None => None
      case Some(timestamp) =>
        match ParseEntries(lines[3..|lines| - 2])
        case None => None
        case Some(infos) => Some((timestamp, infos))
  }

  // ---------------------------------------------------------------- round trips

  lemma BodyRoundTrip(info: IconInfo)
    ensures ParseBody(EntryBody(info)) == Some(info)
  {
    var b3 := info.name + XLabel + Render(info.x) + YLabel + Render(info.y);
    var b2 := b3 + WidthLabel + Render(info.width);
    var b1 := b2 + HeightLabel + Render(info.height);
    assert EntryBody(info) == b1;
    StripFieldAppend(b2, HeightLabel, info.height);
    StripFieldAppend(b3, WidthLabel, info.width);
    StripFieldAppend(info.name + XLabel + Render(info.x), YLabel, info.y);
    StripFieldAppend(info.name, XLabel, info.x);
  }

  /** An entry line reads back as the record it was written from. */
  lemma EntryRoundTrip(info: IconInfo)
    ensures ParseEntry(Entry(info)) == Some(info)
  {
    var line := Entry(info);
    var body := EntryBody(info);
    assert line[..|EntryStart|] == EntryStart;
    assert line[|line| - |EntryEnd|..] == EntryEnd;
    assert line[|EntryStart|..|line| - |EntryEnd|] == body;
    BodyRoundTrip(info);
  }

  /** A line that reads as a record is exactly that record's entry. */
  lemma EntrySound(line: string)
    requires ParseEntry(line).Some?
    ensures Entry(ParseEntry(line).value) == line
  {
    var body := line[|EntryStart|..|line| - |EntryEnd|];
    Framed(line, EntryStart, EntryEnd);
    BodySound(body);
  }

  /** A line that starts with a and ends with b is a, the text between, and b. */
  lemma Framed(line: string, a: string, b: string)
    requires |a| + |b| <= |line| && line[..|a|] == a && line[|line| - |b|..] == b
    ensures line == a + line[|a|..|line| - |b|] + b
  {
  }

  /** The inside of an entry that reads as a record is exactly that record's. */
  lemma BodySound(body: string)
    requires ParseBody(body).Some?
    ensures EntryBody(ParseBody(body).value) == body
  {
    var (b1, h) := StripField(body, HeightLabel).value;
    var (b2, w) := StripField(b1, WidthLabel).value;
    var (b3, y) := StripField(b2, YLabel).value;
    var (name, x) := StripField(b3, XLabel).value;
    StripFieldSound(body, HeightLabel);
    StripFieldSound(b1, WidthLabel);
    StripFieldSound(b2, YLabel);
    StripFieldSound(b3, XLabel);
  }

  lemma {:induction false} EntriesRoundTrip(infos: seq<IconInfo>)
    ensures ParseEntries(Entries(infos)) == Some(infos)
    decreases |infos|
  {
    if infos != [] {
      var lines := Entries(infos);
      EntriesCons(infos);
      assert lines[0] == Entry(infos[0]) && lines[1..] == Entries(infos[1..]);
      EntryRoundTrip(infos[0]);
      EntriesRoundTrip(infos[1..]);
      ParseEntriesBuild(lines);
      assert infos == [infos[0]] + infos[1..];
    }
  }

  lemma {:induction false} EntriesSound(lines: seq<string>)
    requires ParseEntries(lines).Some?
    ensures Entries(ParseEntries(lines).value) == lines
    decreases |lines|
  {
    if lines != [] {
      var infos := ParseEntries(lines).value;
      ParseEntriesCons(lines);
      EntriesSound(lines[1..]);
      EntrySound(lines[0]);
      assert infos[0] == ParseEntry(lines[0]).value && infos[1..] == ParseEntries(lines[1..]).value;
      EntriesCons(infos);
      assert lines == [lines[0]] + lines[1..];
    }
  }

  lemma EntriesCons(infos: seq<IconInfo>)
    requires infos != []
    ensures Entries(infos) == [Entry(infos[0])] + Entries(infos[1..])
  {
  }

  lemma ParseEntriesBuild(lines: seq<string>)
    requires lines != [] && ParseEntry(lines[0]).Some? && ParseEntries(lines[1..]).Some?
    ensures ParseEntries(lines) == Some([ParseEntry(lines[0]).value] + ParseEntries(lines[1..]).value)
  {
  }

  lemma ParseEntriesCons(lines: seq<string>)
    requires lines != [] && ParseEntries(lines).Some?
    ensures ParseEntry(lines[0]).Some? && ParseEntries(lines[1..]).Some?
    ensures ParseEntries(lines).value == [ParseEntry(lines[0]).value] + ParseEntries(lines[1..]).value
  {
  }

  /** A line that reads as a header is the header of the time stamp read. */
  lemma HeaderSound(line: string)
    requires ParseHeader(line).Some?
    ensures Header(ParseHeader(line).value) == line
  {
    Framed(line, HeaderStart, HeaderEnd);
  }

  /**
    A module reads back as the time stamp and records it was written from, and only the
    lines written from a time stamp and records read back at all: parsing and writing
    are inverse.
   */
  lemma RoundTrip(lines: seq<string>, timestamp: string, infos: seq<IconInfo>)
    ensures Parse(lines) == Some((timestamp, infos)) <==> lines == Lines(timestamp, infos)
  {
    if lines == Lines(timestamp, infos) {
      LinesReadBack(timestamp, infos);
    }
    if Parse(lines) == Some((timestamp, infos)) {
      ParseSound(lines);
    }
  }

  /** Writing then reading gives back the time stamp and the records. */
  lemma LinesReadBack(timestamp: string, infos: seq<IconInfo>)
    ensures Parse(Lines(timestamp, infos)) == Some((timestamp, infos))
  {
    var lines := Lines(timestamp, infos);
    Parts(Header(timestamp), "", Declaration, Entries(infos), "", Closing);
    EntriesRoundTrip(infos);
  }

  /** Whatever reads back is the module written from what was read. */
  lemma ParseSound(lines: seq<string>)
    requires Parse(lines).Some?
    ensures Lines(Parse(lines).value.0, Parse(lines).value.1) == lines
  {
    var middle := lines[3..|lines| - 2];
    EntriesSound(middle);
    HeaderSound(lines[0]);
    FiveParts(lines);
  }

  lemma Parts<T>(a: T, b: T, c: T, m: seq<T>, d: T, e: T)
    ensures var s := [a, b, c] + m + [d, e];
            && |s| == |m| + 5 && s[0] == a && s[1] == b && s[2] == c
            && s[|s| - 2] == d && s[|s| - 1] == e && s[3..|s| - 2] == m
  {
    var s := [a, b, c] + m + [d, e];
    assert s[3..|s| - 2] == m;
  }

  lemma FiveParts<T>(s: seq<T>)
    requires |s| >= 5
    ensures s == [s[0], s[1], s[2]] + s[3..|s| - 2] + [s[|s| - 2], s[|s| - 1]]
  {
    assert s == s[..3] + s[3..|s| - 2] + s[|s| - 2..];
  }

  /** Different time stamps or different record lists give different modules. */
  lemma LinesInjective(t1: string, i1: seq<IconInfo>, t2: string, i2: seq<IconInfo>)
    ensures Lines(t1, i1) == Lines(t2, i2) <==> t1 == t2 && i1 == i2
  {
    RoundTrip(Lines(t1, i1), t1, i1);
    RoundTrip(Lines(t2, i2), t2, i2);
  }

  // ---------------------------------------------------------------- lines of the file

  /** Position of the first newline in t, or |t| when there is none. */
  function LineEnd(t: string): (k: nat)
    ensures k <= |t|
    ensures forall j :: 0 <= j < k ==> t[j] != '\n'
    ensures k < |t| ==> t[k] == '\n'
  {
    if t == [] || t[0] == '\n' then 0 else LineEnd(t[1..]) + 1
  }

  /** Splits file content at newlines; a final line without a newline still counts. */
  function SplitLines(t: string): seq<string>
    decreases |t|
  {
    if t == [] then []
    else
      var k := LineEnd(t);
      if k == |t| then [t] else [t[..k]] + SplitLines(t[k + 1..])
  }

  predicate NoNewline(s: string) {
    '\n' !in s
  }

  lemma LineEndOf(line: string, rest: string)
    requires NoNewline(line)
    ensures LineEnd(line + "\n" + rest) == |line|
    decreases |line|
  {
    if line != [] {
      assert (line + "\n" + rest)[1..] == line[1..] + "\n" + rest;
      LineEndOf(line[1..], rest);
    }
  }

  /** Lines free of newlines are recovered from the text that terminates each of them. */
  lemma {:induction false} SplitText(lines: seq<string>)
    requires forall i :: 0 <= i < |lines| ==> NoNewline(lines[i])
    ensures SplitLines(Text(lines)) == lines
    decreases |lines|
  {
    if lines != [] {
      var t := Text(lines);
      LineEndOf(lines[0], Text(lines[1..]));
      assert t[..|lines[0]|] == lines[0];
      assert t[|lines[0]| + 1..] == Text(lines[1..]);
      SplitText(lines[1..]);
      assert lines == [lines[0]] + lines[1..];
    }
  }

  lemma DigitsHaveNoNewline(s: string)
    requires AllDigits(s)
    ensures NoNewline(s)
  {
    forall i | 0 <= i < |s| ensures s[i] != '\n' {
      assert IsDigit(s[i]);
    }
  }

  /**
    When the time stamp and the names contain no newline, the file content splits back
    into the module's lines, so the file alone determines the time stamp and the records.
   */
  lemma ModuleTextRoundTrip(timestamp: string, infos: seq<IconInfo>)
    requires NoNewline(timestamp)
    requires forall i :: 0 <= i < |infos| ==> NoNewline(infos[i].name)
    ensures Parse(SplitLines(ModuleText(timestamp, infos))) == Some((timestamp, infos))
  {
    var lines := Lines(timestamp, infos);
    SplitText(lines);
    RoundTrip(lines, timestamp, infos);
  }
}

=== FILE: paths.dfy ===
/**
  The part of Rust's `Path` the layout engine uses: `file_stem()`, the final path
  component without its last extension, for `/`-separated paths.
 */
module Paths {
  import opened Results

  /** Position of the last `c` in `s`, or -1 when `s` has none. */
  function LastIndexOf(s: string, c: char): (k: int)
    ensures -1 <= k < |s|
    ensures k >= 0 ==> s[k] == c
    ensures forall j :: k < j < |s| ==> s[j] != c
    decreases |s|
  {
    if |s| == 0 then -1
    else if s[|s| - 1] == c then |s| - 1
    else LastIndexOf(s[..|s| - 1], c)
  }

  /**
    The end of a path as `Path::components` sees it: separators at the end, and `.`
    components after a separator, are not components, so they are dropped.
   */
  function TrimEnd(path: string): (t: string)
    ensures |t| <= |path| && path[..|t|] == t
    ensures forall j :: |t| <= j < |path| ==> path[j] == '/' || path[j] == '.'
    ensures forall j :: |t| <= j < |path| && path[j] == '.' ==> j > 0 && path[j - 1] == '/'
    ensures t == [] || t[|t| - 1] != '/'
    ensures |t| >= 2 ==> !(t[|t| - 2] == '/' && t[|t| - 1] == '.')
    decreases |path|
  {
    if |path| >= 1 && path[|path| - 1] == '/' then TrimEnd(path[..|path| - 1])
    else if |path| >= 2 && path[|path| - 2] == '/' && path[|path| - 1] == '.' then TrimEnd(path[..|path| - 1])
    else path
  }

  /** The properties `TrimEnd` promises of its result, for a candidate t. */
  predicate TrimmedEnd(path: string, t: string) {
    && |t| <= |path| && path[..|t|] == t
    && (forall j :: |t| <= j < |path| ==> Droppable(path, j))
    && (t == [] || t[|t| - 1] != '/')
    && (|t| >= 2 ==> !(t[|t| - 2] == '/' && t[|t| - 1] == '.'))
  }

  /** Position j of the path is a separator, or the dot of a `.` component after one. */
  predicate Droppable(path: string, j: nat)
    requires j < |path|
  {
    path[j] == '/' || (path[j] == '.' && j > 0 && path[j - 1] == '/')
  }

  /** Every position a trimmed candidate leaves out can be dropped. */
  lemma DroppedAt(path: string, t: string, j: nat)
    requires TrimmedEnd(path, t) && |t| <= j < |path|
    ensures Droppable(path, j)
  {
  }

  /** Those properties pin the trimmed path down: any t that has them is `TrimEnd(path)`. */
  lemma TrimEndUnique(path: string, t: string)
    requires TrimmedEnd(path, t)
    ensures t == TrimEnd(path)
  {
    var u := TrimEnd(path);
    assert TrimmedEnd(path, u);
    if |t| < |u| {
      DroppedAt(path, t, |u| - 1);
      assert false;
    } else if |u| < |t| {
      assert false;
    }
    assert t == path[..|t|] == u;
  }

  /**
    `Path::file_name`: the last component, when it is a normal one. Separators at the
    end, and `.` components after a separator, are skipped; the root, `.` at the start
    and `..` are not normal components, and the empty path has none.
    It strips one trailing piece per step, as `Path::components` does from the back;
    `FileNameOfTrimmed` shows it equals `LastName(TrimEnd(path))`. The step-wise form keeps
    proofs about concrete paths cheap, since the verifier unfolds it only a few steps at a time.
   */
  function FileName(path: string): (r: Option<string>)
    ensures r.Some? ==> r.value != [] && r.value != "." && r.value != ".." && '/' !in r.value
    decreases |path|
  {
    if |path| >= 1 && path[|path| - 1] == '/' then FileName(path[..|path| - 1])
    else if |path| >= 2 && path[|path| - 2] == '/' && path[|path| - 1] == '.' then FileName(path[..|path| - 1])
    else LastName(path)
  }

  /** The text after the last separator, unless it is empty, `.` or `..`. */
  function LastName(path: string): (r: Option<string>)
    ensures r.Some? ==> r.value != [] && r.value != "." && r.value != ".." && '/' !in r.value
  {
    var name := path[LastIndexOf(path, '/') + 1..];
    if name == [] || name == "." || name == ".." then None else Some(name)
  }

  /** The file name is read off the last segment of the path as `TrimEnd` leaves it. */
  lemma {:induction false} FileNameOfTrimmed(path: string)
    ensures FileName(path) == LastName(TrimEnd(path))
    decreases |path|
  {
    var p := if path == [] then [] else path[..|path| - 1];
    if |path| >= 1 && path[|path| - 1] == '/' {
      assert TrimEnd(path) == TrimEnd(p);
      assert FileName(path) == FileName(p);
      FileNameOfTrimmed(p);
    } else if |path| >= 2 && path[|path| - 2] == '/' && path[|path| - 1] == '.' {
      assert TrimEnd(path) == TrimEnd(p);
      assert FileName(path) == FileName(p);
      FileNameOfTrimmed(p);
    } else {
      assert TrimEnd(path) == path;
    }
  }

  /**
    A file name is a non-empty segment of the path, free of separators, neither `.` nor
    `..`, and followed in the path by nothing but separators and dots.
   */
  lemma FileNameShape(path: string)
    requires FileName(path).Some?
    ensures var name := FileName(path).value;
            var t := TrimEnd(path);
            && name != [] && name != "." && name != ".." && '/' !in name
            && |name| <= |t| && t[|t| - |name|..] == name
            && (|name| == |t| || t[|t| - |name| - 1] == '/')
  {
    FileNameOfTrimmed(path);
  }

  /**
    The stem of a file name: everything before its last dot, except that a name whose
    only dot is its first character (`.bashrc`) is its own stem.
   */
  function StemOf(name: string): string
    requires name != []
  {
    var d := LastIndexOf(name, '.');
    if d <= 0 then name else name[..d]
  }

  /**
    A stem is a non-empty prefix of the name; it is the whole name exactly when no dot
    follows the first character, and otherwise the name continues with a dot and a final
    extension free of dots.
   */
  lemma StemShape(name: string)
    requires name != []
    ensures var stem := StemOf(name);
            && stem != [] && |stem| <= |name| && name[..|stem|] == stem
            && (stem == name <==> forall j :: 1 <= j < |name| ==> name[j] != '.')
            && (stem != name ==> name[|stem|] == '.' && forall j :: |stem| < j < |name| ==> name[j] != '.')
  {
  }

  /** `Path::file_stem`; `None` is where the source's `unwrap()` panics. */
  function FileStem(path: string): (r: Option<string>)
    ensures r.Some? ==> r.value != [] && '/' !in r.value
  {
    match FileName(path)
    case None => None
    case Some(name) => Some(StemOf(name))
  }

  /** A stem is a piece of its path, so it holds no character the path does not. */
  lemma StemWithinPath(path: string)
    requires FileStem(path).Some?
    ensures forall c :: c in FileStem(path).value ==> c in path
  {
    var name := FileName(path).value;
    NameWithinPath(path);
    StemWithinName(name);
  }

  lemma NameWithinPath(path: string)
    requires FileName(path).Some?
    ensures forall c :: c in FileName(path).value ==> c in path
  {
    FileNameShape(path);
    var name := FileName(path).value;
    var t := TrimEnd(path);
    var off := |t| - |name|;
    forall c | c in name ensures c in path {
      var j :| 0 <= j < |name| && name[j] == c;
      assert t[off + j] == c;
      assert path[off + j] == c;
    }
  }

  lemma StemWithinName(name: string)
    requires name != []
    ensures forall c :: c in StemOf(name) ==> c in name
  {
    StemShape(name);
    var stem := StemOf(name);
    forall c | c in stem ensures c in name {
      var j :| 0 <= j < |stem| && stem[j] == c;
      assert name[j] == c;
    }
  }

  /** The last occurrence of `c` is pinned down by its position and the characters after it. */
  lemma LastIndexAt(s: string, c: char, k: nat)
    requires k < |s| && s[k] == c
    requires forall j :: k < j < |s| ==> s[j] != c
    ensures LastIndexOf(s, c) == k
  {
  }

  /** A path made of one plain base name and one extension has that base name as its stem. */
  lemma PlainFileStem(base: string, ext: string)
    requires base != [] && '/' !in base && '.' !in base
    requires '/' !in ext && '.' !in ext
    ensures FileStem(base + "." + ext) == Some(base)
  {
    var p := base + "." + ext;
    assert p[|base|] == '.';
    assert forall j :: 0 <= j < |p| ==> p[j] != '/' by {
      forall j | 0 <= j < |p| ensures p[j] != '/' {
        if j < |base| { assert p[j] == base[j]; }
        else if j > |base| { assert p[j] == ext[j - |base| - 1]; }
      }
    }
    assert LastIndexOf(p, '/') == -1;
    assert p[0..] == p;
    forall j | |base| < j < |p| ensures p[j] != '.' {
      assert p[j] == ext[j - |base| - 1];
    }
    assert p[0] == base[0] && p[0] != '.';
    assert p != "..";
    assert FileName(p) == Some(p);
    LastIndexAt(p, '.', |base|);
    assert p[..|base|] == base;
    assert StemOf(p) == base;
  }

  /** The stem of a plain icon file name is the text before its extension. */
  lemma StemExamples()
    ensures FileStem("icons/a.png") == Some("a")
    ensures FileStem("icons/a.tar.gz") == Some("a.tar")
  {
    LastIndexAt("icons/a.png", '/', 5);
    assert "icons/a.png"[6..] == "a.png";
    LastIndexAt("a.png", '.', 1);
    assert "a.png"[..1] == "a";
    LastIndexAt("icons/a.tar.gz", '/', 5);
    assert "icons/a.tar.gz"[6..] == "a.tar.gz";
    LastIndexAt("a.tar.gz", '.', 5);
    assert "a.tar.gz"[..5] == "a.tar";
  }

  /** Two files in different directories can share a stem, which the layout passes through unchanged. */
  lemma StemNestedExample()
    ensures FileStem("icons/sub/a.png") == Some("a")
  {
    LastIndexAt("icons/sub/a.png", '/', 9);
    assert "icons/sub/a.png"[10..] == "a.png";
    LastIndexAt("a.png", '.', 1);
    assert "a.png"[..1] == "a";
  }

  /** A leading dot is not an extension. */
  lemma StemHiddenExample()
    ensures FileStem("icons/.hidden") == Some(".hidden")
  {
    LastIndexAt("icons/.hidden", '/', 5);
    assert "icons/.hidden"[6..] == ".hidden";
    LastIndexAt(".hidden", '.', 0);
  }

  /** Trailing separators and `.` components do not count: the last real component is named. */
  lemma StemTrailingExample()
    ensures FileStem("icons/") == Some("icons")
    ensures FileStem("icons/.") == Some("icons")
  {
    assert TrimEnd("icons/") == "icons" by {
      assert "icons/"[..5] == "icons";
    }
    assert TrimEnd("icons/.") == "icons" by {
      assert "icons/."[..6] == "icons/";
      assert "icons/"[..5] == "icons";
    }
    assert LastIndexOf("icons", '/') == -1;
    assert LastIndexOf("icons", '.') == -1;
  }

  /** A path ending in `..`, the root, `.` and the empty path have no stem. */
  lemma NoStemExamples()
    ensures FileStem("icons/..") == None
    ensures FileStem("/") == None
    ensures FileStem(".") == None
    ensures FileStem("") == None
  {
    LastIndexAt("icons/..", '/', 5);
    assert "icons/.."[6..] == "..";
    assert TrimEnd("/") == "" by {
      assert "/"[..0] == "";
    }
  }
}

=== FILE: pipeline.dfy ===
/**
  The program's flow once the icon paths are known: end without writing any file when
  there are none, lay the sheet out, and write the Luau module describing it. The prompts,
  the console messages, the directory walk and the file writes are not modelled; the time
  stamp is a parameter.
 */
module Pipeline {
  import opened Results
  import opened GridMath
  import opened SheetLayout
  import opened LuauModule
  import Paths

  /** What a run ends with. */
  datatype Outcome =
    | NoIcons                                     // nothing to lay out: the run ends without writing any file
    | Failed(failure: Failure)                    // the layout stopped at an icon
    | Generated(sheet: Sheet, moduleText: string) // the sheet and the content of the module file

  /**
    A run over the sorted icon paths. An empty list ends the run before any layout; a
    layout failure ends it before the module is written; otherwise the module is written
    from the layout's records.
   */
  function Run(icons: seq<IconFile>, timestamp: string): (o: Outcome)
    ensures o.NoIcons? <==> icons == []
    ensures o.Generated? <==>
              && icons != [] && icons[0].decoded.Some?
              && forall i :: 0 <= i < |icons| ==> IconFailure(icons[i], i, SheetGrid(icons)).None?
    ensures o.Failed? ==>
              && icons != []
              && (icons[0].decoded.None? ==> o.failure == DecodeFailed(0))
              && (icons[0].decoded.Some? ==> FirstFailureIs(icons, SheetGrid(icons), o.failure, |icons|))
    ensures o.Failed? ==> CreateSpritesheet(icons) == Err(o.failure)
    ensures o.Generated? ==> CreateSpritesheet(icons) == Ok(o.sheet)
    ensures o.Generated? ==> o.moduleText == ModuleText(timestamp, o.sheet.records)
    ensures o.Generated? ==> |o.sheet.records| == |icons|
  {
    if icons == [] then NoIcons
    else
      CreateSpritesheetOutcome(icons);
      match CreateSpritesheet(icons)
      case Err(e) => Failed(e)
      case Ok(s) => Generated(s, ModuleText(timestamp, s.records))
  }

  /**
    The written module reads back as the time stamp and the sheet's records, provided the
    time stamp and the names hold no line break.
   */
  lemma RunModuleReadsBack(icons: seq<IconFile>, timestamp: string)
    requires Run(icons, timestamp).Generated?
    requires NoNewline(timestamp)
    requires forall i :: 0 <= i < |Run(icons, timestamp).sheet.records| ==>
               NoNewline(Run(icons, timestamp).sheet.records[i].name)
    ensures Parse(SplitLines(Run(icons, timestamp).moduleText))
            == Some((timestamp, Run(icons, timestamp).sheet.records))
  {
    ModuleTextRoundTrip(timestamp, Run(icons, timestamp).sheet.records);
  }

  /**
    End to end, for icons of one size whose paths have stems and no line breaks: the run
    succeeds, and its module reads back as one record per icon, in input order, naming
    the icon's stem, at column i mod columns and row i div columns of the grid.
   */
  lemma RunUniform(icons: seq<IconFile>, timestamp: string)
    requires UniformSize(icons) && Named(icons)
    requires NoNewline(timestamp)
    requires forall i :: 0 <= i < |icons| ==> '\n' !in icons[i].path
    ensures Run(icons, timestamp).Generated?
    ensures var o := Run(icons, timestamp);
            var n, w, h := |icons|, icons[0].decoded.value.width, icons[0].decoded.value.height;
            exists infos: seq<IconInfo> ::
              && Parse(SplitLines(o.moduleText)) == Some((timestamp, infos))
              && |infos| == n
              && forall i :: 0 <= i < n ==>
                   && infos[i].name == Paths.FileStem(icons[i].path).value
                   && infos[i].x == (i % Columns(n)) * w
                   && infos[i].y == (i / Columns(n)) * h
                   && infos[i].width == w
                   && infos[i].height == h
  {
    UniformLayoutRecords(icons);
    var o := Run(icons, timestamp);
    var records := o.sheet.records;
    forall i | 0 <= i < |records| ensures NoNewline(records[i].name) {
      Paths.StemWithinPath(icons[i].path);
    }
    RunModuleReadsBack(icons, timestamp);
    assert Parse(SplitLines(o.moduleText)) == Some((timestamp, records));
  }
}

=== FILE: pixels.dfy ===
/**
  RGBA pixel grids as the image crate's `ImageBuffer<Rgba<u8>, _>` presents them:
  a width x height raster, row-major, addressed by (x, y) with x the column.
 */
module Pixels {
  import opened Results

  newtype byte = x: int | 0 <= x < 256

  /** One pixel: red, green, blue and alpha channels of one byte each. */
  datatype Rgba = Rgba(r: byte, g: byte, b: byte, a: byte)

  /** The value every pixel of a freshly allocated buffer holds. */
  const Transparent: Rgba := Rgba(0, 0, 0, 0)

  datatype Raster = Raster(width: nat, height: nat, rows: seq<seq<Rgba>>)
  {
    /** `rows` holds `height` rows of `width` pixels each. */
    predicate WellFormed() {
      |rows| == height && forall y :: 0 <= y < |rows| ==> |rows[y]| == width
    }

    predicate Contains(x: int, y: int) {
      0 <= x < width && 0 <= y < height
    }
  }

  /** A raster whose row data agrees with its declared dimensions. */
  type Image = r: Raster | r.WellFormed() witness Raster(0, 0, [])

  function At(img: Image, x: nat, y: nat): Rgba
    requires img.Contains(x, y)
  {
    img.rows[y][x]
  }

  predicate SameSize(a: Image, b: Image) {
    a.width == b.width && a.height == b.height
  }

  /** `ImageBuffer::new(width, height)`: every pixel is zero, that is, transparent black. */
  function Blank(width: nat, height: nat): (img: Image)
    ensures img.width == width && img.height == height
    ensures forall x, y :: img.Contains(x, y) ==> At(img, x, y) == Transparent
  {
    Raster(width, height, seq(height, _ => seq(width, _ => Transparent)))
  }

  /**
    `put_pixel`: overwrites one pixel; the library panics (here: `None`) when (x, y)
    lies outside the buffer.
   */
  function PutPixel(img: Image, x: nat, y: nat, p: Rgba): (r: Option<Image>)
    ensures r.Some? <==> img.Contains(x, y)
    ensures r.Some? ==> SameSize(r.value, img) && At(r.value, x, y) == p
    ensures r.Some? ==> forall x', y' :: img.Contains(x', y') && (x' != x || y' != y) ==>
                          At(r.value, x', y') == At(img, x', y')
  {
    if img.Contains(x, y) then
      Some(Raster(img.width, img.height, img.rows[y := img.rows[y][x := p]]))
    else
      None
  }

  /** Whether pasting `icon` with its top-left corner at (ox, oy) writes only inside a width x height buffer. */
  predicate Fits(width: nat, height: nat, icon: Image, ox: nat, oy: nat) {
    icon.width == 0 || icon.height == 0 || (ox + icon.width <= width && oy + icon.height <= height)
  }

  /**
    Whether (x, y) lies in the rectangle an icon pasted at (ox, oy) covers. The grid's
    `InCell` and the layout's `InRecord` are the same rectangle test over a cell and a
    record; each module states it over its own data so that this one needs no grid.
   */
  predicate Covers(icon: Image, ox: nat, oy: nat, x: int, y: int) {
    ox <= x < ox + icon.width && oy <= y < oy + icon.height
  }

  /**
    Writes pixels 0 .. i-1 of row j of `icon`, left to right, to row oy + j of `sheet`
    starting at column ox, one `put_pixel` each.
   */
  function PasteRowPrefix(sheet: Image, icon: Image, ox: nat, oy: nat, j: nat, i: nat): (r: Option<Image>)
    requires j < icon.height && i <= icon.width
    ensures r.Some? <==> (i == 0 || (ox + i <= sheet.width && oy + j < sheet.height))
    ensures r.Some? ==> SameSize(r.value, sheet)
    ensures r.Some? ==> forall x, y :: sheet.Contains(x, y) ==>
                          At(r.value, x, y) == if y == oy + j && ox <= x < ox + i then At(icon, x - ox, j) else At(sheet, x, y)
    decreases i
  {
    if i == 0 then Some(sheet)
    else
      match PasteRowPrefix(sheet, icon, ox, oy, j, i - 1)
      case None => None
      case Some(s) => PutPixel(s, ox + i - 1, oy + j, At(icon, i - 1, j))
  }

  /** Writes rows 0 .. j-1 of `icon`, top to bottom, each row left to right. */
  function PasteRows(sheet: Image, icon: Image, ox: nat, oy: nat, j: nat): (r: Option<Image>)
    requires j <= icon.height
    ensures r.Some? <==> (j == 0 || icon.width == 0 || (ox + icon.width <= sheet.width && oy + j <= sheet.height))
    ensures r.Some? ==> SameSize(r.value, sheet)
    ensures r.Some? ==> forall x, y :: sheet.Contains(x, y) ==>
                          At(r.value, x, y) == if ox <= x < ox + icon.width && oy <= y < oy + j then At(icon, x - ox, y - oy) else At(sheet, x, y)
    decreases j
  {
    if j == 0 then Some(sheet)
    else
      match PasteRows(sheet, icon, ox, oy, j - 1)
      case None => None
      case Some(s) => PasteRowPrefix(s, icon, ox, oy, j - 1, icon.width)
  }

  /**
    The source's loop `for (i, j, pixel) in icon.pixels() { put_pixel(ox + i, oy + j, pixel) }`:
    an unscaled copy of `icon` whose top-left corner lands on (ox, oy). It panics exactly
    when some pixel of a non-empty icon would land outside the sheet; otherwise every
    covered pixel becomes the icon's and every other pixel keeps its value.
   */
  function Composite(sheet: Image, icon: Image, ox: nat, oy: nat): (r: Option<Image>)
    ensures r.Some? <==> Fits(sheet.width, sheet.height, icon, ox, oy)
    ensures r.Some? ==> SameSize(r.value, sheet)
    ensures r.Some? ==> forall x, y :: sheet.Contains(x, y) && Covers(icon, ox, oy, x, y) ==>
                          At(r.value, x, y) == At(icon, x - ox, y - oy)
    ensures r.Some? ==> forall x, y :: sheet.Contains(x, y) && !Covers(icon, ox, oy, x, y) ==>
                          At(r.value, x, y) == At(sheet, x, y)
  {
    PasteRows(sheet, icon, ox, oy, icon.height)
  }
}

=== FILE: results.dfy ===
/** Failure-carrying values shared by the whole model. */
module Results {

  /** A value that may be absent: a `None` stands for Rust's `None` and for a panic on `unwrap`. */
  datatype Option<+T> = None | Some(value: T)

  /** The outcome of an operation that can fail with an error of type `E`, as Rust's `Result`. */
  datatype Result<+T, +E> = Ok(value: T) | Err(error: E)
}

=== FILE: spritesheet.dfy ===
/**
  The sheet layout engine, `create_spritesheet`: sizes a near-square grid from the icon
  count, pastes icon i unscaled into cell i, and records where each icon went.
 */
module SheetLayout {
  import opened Results
  import opened Pixels
  import opened GridMath
  import Paths

  /** One discovered icon file: its path and what decoding it yields (`None`: the decoder failed). */
  datatype IconFile = IconFile(path: string, decoded: Option<Image>)

  /** `IconInfo`: the rectangle icon `name` occupies in the sheet. */
  datatype IconInfo = IconInfo(name: string, x: nat, y: nat, width: nat, height: nat)

  /** Why the layout stops; `index` is the position of the offending icon in the input. */
  datatype Failure =
    | DecodeFailed(index: nat)      // `image::open` returned an error
    | PixelOutOfBounds(index: nat)  // `put_pixel` panicked
    | MissingStem(index: nat)       // `file_stem().unwrap()` panicked

  /** The composited sheet and the placement records, in input order. */
  datatype Sheet = Sheet(image: Image, records: seq<IconInfo>)

  /** Whether (x, y) lies in the rectangle a record describes (the rectangle test of `Covers`, over a record). */
  predicate InRecord(info: IconInfo, x: int, y: int) {
    info.x <= x < info.x + info.width && info.y <= y < info.y + info.height
  }

  /** The grid for the whole input: its cell size is the first icon's. */
  function SheetGrid(icons: seq<IconFile>): (g: Grid)
    requires |icons| > 0 && icons[0].decoded.Some?
    ensures g.columns >= 1
  {
    GridFor(|icons|, icons[0].decoded.value.width, icons[0].decoded.value.height)
  }

  /**
    `create_spritesheet`. The first icon fixes the cell size, the sheet starts transparent,
    and icons are placed one after another in input order; the first failure aborts the
    whole layout.
   */
  function CreateSpritesheet(icons: seq<IconFile>): (r: Result<Sheet, Failure>)
    requires |icons| > 0
    ensures icons[0].decoded.None? ==> r == Err(DecodeFailed(0))
    ensures r.Ok? ==> |r.value.records| == |icons|
    ensures r.Ok? ==> r.value.image.width == Columns(|icons|) * icons[0].decoded.value.width
    ensures r.Ok? ==> r.value.image.height == Rows(|icons|) * icons[0].decoded.value.height
    ensures r.Err? ==> r.error.index < |icons|
  {
    match icons[0].decoded
    case None => Err(DecodeFailed(0))
    case Some(_) => PlaceIcons(icons, SheetGrid(icons), |icons|)
  }

  /** The state after the loop body has run for icons 0 .. k-1. */
  function PlaceIcons(icons: seq<IconFile>, g: Grid, k: nat): (r: Result<Sheet, Failure>)
    requires g.columns > 0 && k <= |icons|
    ensures r.Ok? ==> |r.value.records| == k
    ensures r.Ok? ==> r.value.image.width == g.Width() && r.value.image.height == g.Height()
    ensures r.Err? ==> r.error.index < k
    decreases k
  {
    if k == 0 then Ok(Sheet(Blank(g.Width(), g.Height()), []))
    else
      match PlaceIcons(icons, g, k - 1)
      case Err(f) => Err(f)
      case Ok(s) => PlaceIcon(s, icons[k - 1], k - 1, g)
  }

  /** One pass of the loop body: decode, paste at the cell origin, then record the stem. */
  function PlaceIcon(s: Sheet, icon: IconFile, index: nat, g: Grid): (r: Result<Sheet, Failure>)
    requires g.columns > 0
    ensures r.Ok? ==> SameSize(r.value.image, s.image)
    ensures r.Ok? ==> |r.value.records| == |s.records| + 1 && r.value.records[..|s.records|] == s.records
    ensures r.Ok? ==> Paths.FileStem(icon.path).Some?
    ensures r.Ok? ==> r.value.records[|s.records|]
                      == IconInfo(Paths.FileStem(icon.path).value, g.OriginX(index), g.OriginY(index), g.cellWidth, g.cellHeight)
    ensures r.Err? ==> r.error.index == index
  {
    match icon.decoded
    case None => Err(DecodeFailed(index))
    case Some(img) =>
      var x := g.OriginX(index);
      var y := g.OriginY(index);
      match Composite(s.image, img, x, y)
      case None => Err(PixelOutOfBounds(index))
      case Some(pasted) =>
        match Paths.FileStem(icon.path)
        case None => Err(MissingStem(index))
        case Some(name) => Ok(Sheet(pasted, s.records + [IconInfo(name, x, y, g.cellWidth, g.cellHeight)]))
  }

  /**
    What goes wrong with icon `index` on its own, independent of the icons before it:
    it does not decode, it does not fit inside the sheet at its cell origin, or its path
    has no stem - checked in the order the source meets them.
   */
  function IconFailure(icon: IconFile, index: nat, g: Grid): (r: Option<Failure>)
    requires g.columns > 0
    ensures r.Some? ==> r.value.index == index
    ensures r.None? ==> icon.decoded.Some? && Paths.FileStem(icon.path).Some?
  {
    if icon.decoded.None? then Some(DecodeFailed(index))
    else if !Fits(g.Width(), g.Height(), icon.decoded.value, g.OriginX(index), g.OriginY(index)) then
      Some(PixelOutOfBounds(index))
    else if Paths.FileStem(icon.path).None? then Some(MissingStem(index))
    else None
  }

  /** On a sheet of the grid's size, one loop pass fails exactly as the icon's own check says. */
  lemma PlaceIconAgrees(s: Sheet, icon: IconFile, index: nat, g: Grid)
    requires g.columns > 0
    requires s.image.width == g.Width() && s.image.height == g.Height()
    ensures PlaceIcon(s, icon, index, g).Ok? <==> IconFailure(icon, index, g).None?
    ensures PlaceIcon(s, icon, index, g).Err? ==> IconFailure(icon, index, g) == Some(PlaceIcon(s, icon, index, g).error)
  {
  }

  /** The first failing icon, if any, decides the outcome of the placement loop. */
  lemma {:induction false} PlaceIconsOutcome(icons: seq<IconFile>, g: Grid, k: nat)
    requires g.columns > 0 && k <= |icons|
    ensures PlaceIcons(icons, g, k).Ok? <==> forall i :: 0 <= i < k ==> IconFailure(icons[i], i, g).None?
    ensures PlaceIcons(icons, g, k).Err? ==> FirstFailureIs(icons, g, PlaceIcons(icons, g, k).error, k)
    decreases k
  {
    if k > 0 {
      PlaceIconsOutcome(icons, g, k - 1);
      var prev := PlaceIcons(icons, g, k - 1);
      if prev.Ok? {
        OutcomeAfterSuccess(icons, g, k - 1, prev.value);
      } else {
        FailureCarriesOver(icons, g, k, prev.error);
      }
    }
  }

  /** Once the loop has failed, the next pass keeps that failure, which stays the first one. */
  lemma FailureCarriesOver(icons: seq<IconFile>, g: Grid, k: nat, e: Failure)
    requires g.columns > 0 && 0 < k <= |icons|
    requires PlaceIcons(icons, g, k - 1) == Err(e)
    requires FirstFailureIs(icons, g, e, k - 1)
    ensures PlaceIcons(icons, g, k) == Err(e)
    ensures !(forall i :: 0 <= i < k ==> IconFailure(icons[i], i, g).None?)
    ensures FirstFailureIs(icons, g, e, k)
  {
    assert IconFailure(icons[e.index], e.index, g).Some?;
  }

  /** `e` is the failure of the first icon among 0 .. k-1 that fails on its own. */
  ghost predicate FirstFailureIs(icons: seq<IconFile>, g: Grid, e: Failure, k: nat)
    requires g.columns > 0 && k <= |icons|
  {
    && e.index < k
    && IconFailure(icons[e.index], e.index, g) == Some(e)
    && forall i :: 0 <= i < e.index ==> IconFailure(icons[i], i, g).None?
  }

  /** After icons 0 .. k-1 were placed, placing icon k fails exactly when its own check does. */
  lemma OutcomeAfterSuccess(icons: seq<IconFile>, g: Grid, k: nat, s: Sheet)
    requires g.columns > 0 && k < |icons|
    requires PlaceIcons(icons, g, k) == Ok(s)
    requires forall i :: 0 <= i < k ==> IconFailure(icons[i], i, g).None?
    ensures PlaceIcons(icons, g, k + 1).Ok? <==> forall i :: 0 <= i < k + 1 ==> IconFailure(icons[i], i, g).None?
    ensures PlaceIcons(icons, g, k + 1).Err? ==> FirstFailureIs(icons, g, PlaceIcons(icons, g, k + 1).error, k + 1)
  {
    assert PlaceIcons(icons, g, k + 1) == PlaceIcon(s, icons[k], k, g);
    PlaceIconAgrees(s, icons[k], k, g);
  }

  /**
    The layout succeeds exactly when the first icon decodes and no icon fails on its own;
    otherwise it reports the first failing icon.
   */
  lemma CreateSpritesheetOutcome(icons: seq<IconFile>)
    requires |icons| > 0
    ensures CreateSpritesheet(icons).Ok? <==>
              icons[0].decoded.Some? && forall i :: 0 <= i < |icons| ==> IconFailure(icons[i], i, SheetGrid(icons)).None?
    ensures CreateSpritesheet(icons).Err? && icons[0].decoded.Some? ==>
              FirstFailureIs(icons, SheetGrid(icons), CreateSpritesheet(icons).error, |icons|)
  {
    if icons[0].decoded.Some? {
      PlaceIconsOutcome(icons, SheetGrid(icons), |icons|);
    }
  }

  /**
    Whatever the icons' sizes, a loop that has not failed holds, for each placed icon, the
    record the layout owes it: the icon's stem at its cell origin, one cell in size.
   */
  lemma {:induction false} PlaceIconsRecords(icons: seq<IconFile>, g: Grid, k: nat)
    requires g.columns > 0 && k <= |icons|
    requires PlaceIcons(icons, g, k).Ok?
    ensures forall i :: 0 <= i < k ==>
              Paths.FileStem(icons[i].path).Some? && PlaceIcons(icons, g, k).value.records[i] == ExpectedRecord(icons, g, i)
    decreases k
  {
    if k > 0 {
      var s := PlaceIcons(icons, g, k - 1).value;
      PlaceIconsRecords(icons, g, k - 1);
      assert PlaceIcons(icons, g, k) == PlaceIcon(s, icons[k - 1], k - 1, g);
      var rs := PlaceIcons(icons, g, k).value.records;
      forall i | 0 <= i < k
        ensures Paths.FileStem(icons[i].path).Some? && rs[i] == ExpectedRecord(icons, g, i)
      {
        if i < k - 1 {
          assert rs[i] == rs[..k - 1][i] == s.records[i];
        }
      }
    }
  }

  /**
    Every successful layout, uniform or not, records icon i under its stem at column
    i mod columns and row i div columns, with the first icon's width and height.
   */
  lemma LayoutRecords(icons: seq<IconFile>)
    requires |icons| > 0
    requires CreateSpritesheet(icons).Ok?
    ensures var s := CreateSpritesheet(icons).value;
            var n, w, h := |icons|, icons[0].decoded.value.width, icons[0].decoded.value.height;
            forall i :: 0 <= i < n ==>
              && Paths.FileStem(icons[i].path).Some?
              && s.records[i].name == Paths.FileStem(icons[i].path).value
              && s.records[i].x == (i % Columns(n)) * w
              && s.records[i].y == (i / Columns(n)) * h
              && s.records[i].width == w
              && s.records[i].height == h
  {
    PlaceIconsRecords(icons, SheetGrid(icons), |icons|);
  }

  /** Every icon decodes to the first icon's dimensions. */
  predicate UniformSize(icons: seq<IconFile>) {
    && |icons| > 0
    && icons[0].decoded.Some?
    && forall i :: 0 <= i < |icons| ==>
         icons[i].decoded.Some? && SameSize(icons[i].decoded.value, icons[0].decoded.value)
  }

  /** Every path has a file stem. */
  predicate Named(icons: seq<IconFile>) {
    forall i :: 0 <= i < |icons| ==> Paths.FileStem(icons[i].path).Some?
  }

  /** The record the layout owes icon i: its stem at the origin of cell i, one cell in size. */
  function ExpectedRecord(icons: seq<IconFile>, g: Grid, i: nat): IconInfo
    requires g.columns > 0 && i < |icons| && Paths.FileStem(icons[i].path).Some?
  {
    IconInfo(Paths.FileStem(icons[i].path).value, g.OriginX(i), g.OriginY(i), g.cellWidth, g.cellHeight)
  }

  /** Each of the cells 0 .. k-1 shows its icon, pixel for pixel. */
  ghost predicate CellsShowIcons(icons: seq<IconFile>, g: Grid, k: nat, img: Image)
    requires g.columns > 0 && k <= |icons|
  {
    forall i, x, y :: 0 <= i < k && g.InCell(i, x, y) ==>
      && icons[i].decoded.Some?
      && icons[i].decoded.value.Contains(x - g.OriginX(i), y - g.OriginY(i))
      && img.Contains(x, y)
      && At(img, x, y) == At(icons[i].decoded.value, x - g.OriginX(i), y - g.OriginY(i))
  }

  /** Pixels outside the cells 0 .. k-1 are transparent. */
  ghost predicate RestTransparent(g: Grid, k: nat, img: Image)
    requires g.columns > 0
  {
    forall x, y :: img.Contains(x, y) && (forall i :: 0 <= i < k ==> !g.InCell(i, x, y)) ==>
      At(img, x, y) == Transparent
  }

  /**
    What holds after icons 0 .. k-1 are placed: the sheet has the grid's size, the records
    are the expected ones, each placed cell shows its icon, and pixels outside every placed
    cell are still transparent.
   */
  ghost predicate PlacedUpTo(icons: seq<IconFile>, g: Grid, k: nat, s: Sheet)
    requires g.columns > 0 && k <= |icons| && Named(icons)
  {
    && s.image.width == g.Width() && s.image.height == g.Height()
    && |s.records| == k
    && (forall i :: 0 <= i < k ==> s.records[i] == ExpectedRecord(icons, g, i))
    && CellsShowIcons(icons, g, k, s.image)
    && RestTransparent(g, k, s.image)
  }

  /** Reads one pixel of a placed cell back: offset (px, py) from the cell origin is the icon's (px, py). */
  lemma CellPixel(icons: seq<IconFile>, g: Grid, k: nat, img: Image, i: nat, px: nat, py: nat)
    requires g.columns > 0 && k <= |icons| && i < k
    requires CellsShowIcons(icons, g, k, img)
    requires icons[i].decoded.Some? && icons[i].decoded.value.Contains(px, py)
    requires icons[i].decoded.value.width == g.cellWidth && icons[i].decoded.value.height == g.cellHeight
    ensures img.Contains(g.OriginX(i) + px, g.OriginY(i) + py)
    ensures At(img, g.OriginX(i) + px, g.OriginY(i) + py) == At(icons[i].decoded.value, px, py)
  {
    var x, y := g.OriginX(i) + px, g.OriginY(i) + py;
    assert g.InCell(i, x, y);
    assert x - g.OriginX(i) == px && y - g.OriginY(i) == py;
  }

  /** Pasting icon i into its own cell keeps the earlier cells and shows icon i. */
  lemma CellsShowIconsStep(icons: seq<IconFile>, g: Grid, i: nat, a: Image, b: Image)
    requires g.columns > 0 && i < |icons| && icons[i].decoded.Some?
    requires icons[i].decoded.value.width == g.cellWidth && icons[i].decoded.value.height == g.cellHeight
    requires SameSize(a, b)
    requires CellsShowIcons(icons, g, i, a)
    requires forall x, y :: a.Contains(x, y) && g.InCell(i, x, y) ==>
               At(b, x, y) == At(icons[i].decoded.value, x - g.OriginX(i), y - g.OriginY(i))
    requires forall x, y :: a.Contains(x, y) && !g.InCell(i, x, y) ==> At(b, x, y) == At(a, x, y)
    requires g.OriginX(i) + g.cellWidth <= a.width && g.OriginY(i) + g.cellHeight <= a.height
    ensures CellsShowIcons(icons, g, i + 1, b)
  {
    forall j, x, y | 0 <= j < i + 1 && g.InCell(j, x, y)
      ensures icons[j].decoded.Some?
      ensures icons[j].decoded.value.Contains(x - g.OriginX(j), y - g.OriginY(j))
      ensures b.Contains(x, y)
      ensures At(b, x, y) == At(icons[j].decoded.value, x - g.OriginX(j), y - g.OriginY(j))
    {
      if j < i {
        if g.InCell(i, x, y) {
          CellsDisjoint(g, i, j, x, y);
          assert false;
        }
      }
    }
  }

  /** Pasting icon i into its own cell leaves every pixel outside cells 0 .. i transparent. */
  lemma RestTransparentStep(g: Grid, i: nat, a: Image, b: Image)
    requires g.columns > 0
    requires SameSize(a, b)
    requires RestTransparent(g, i, a)
    requires forall x, y :: a.Contains(x, y) && !g.InCell(i, x, y) ==> At(b, x, y) == At(a, x, y)
    ensures RestTransparent(g, i + 1, b)
  {
    forall x, y | b.Contains(x, y) && (forall j :: 0 <= j < i + 1 ==> !g.InCell(j, x, y))
      ensures At(b, x, y) == Transparent
    {
      assert !g.InCell(i, x, y);
    }
  }

  /** An icon of exactly the cell's size, pasted at the origin of cell i, fills that cell and nothing else. */
  lemma PasteIntoCell(g: Grid, i: nat, a: Image, img: Image) returns (b: Image)
    requires g.columns > 0 && i < g.columns * g.rows
    requires a.width == g.Width() && a.height == g.Height()
    requires img.width == g.cellWidth && img.height == g.cellHeight
    ensures Composite(a, img, g.OriginX(i), g.OriginY(i)) == Some(b)
    ensures SameSize(a, b)
    ensures g.OriginX(i) + g.cellWidth <= a.width && g.OriginY(i) + g.cellHeight <= a.height
    ensures forall x, y :: a.Contains(x, y) && g.InCell(i, x, y) ==>
              At(b, x, y) == At(img, x - g.OriginX(i), y - g.OriginY(i))
    ensures forall x, y :: a.Contains(x, y) && !g.InCell(i, x, y) ==> At(b, x, y) == At(a, x, y)
  {
    var ox, oy := g.OriginX(i), g.OriginY(i);
    CellInside(g, i);
    assert Fits(a.width, a.height, img, ox, oy);
    b := Composite(a, img, ox, oy).value;
    forall x, y | a.Contains(x, y) && g.InCell(i, x, y)
      ensures At(b, x, y) == At(img, x - ox, y - oy)
    {
      assert Covers(img, ox, oy, x, y);
    }
    forall x, y | a.Contains(x, y) && !g.InCell(i, x, y)
      ensures At(b, x, y) == At(a, x, y)
    {
      assert !Covers(img, ox, oy, x, y);
    }
  }

  /** A loop pass that meets no failure pastes the icon and appends its record. */
  lemma PlaceIconSucceeds(s: Sheet, icon: IconFile, index: nat, g: Grid)
    requires g.columns > 0 && icon.decoded.Some? && Paths.FileStem(icon.path).Some?
    requires Composite(s.image, icon.decoded.value, g.OriginX(index), g.OriginY(index)).Some?
    ensures PlaceIcon(s, icon, index, g) ==
              Ok(Sheet(Composite(s.image, icon.decoded.value, g.OriginX(index), g.OriginY(index)).value,
                       s.records + [IconInfo(Paths.FileStem(icon.path).value, g.OriginX(index), g.OriginY(index), g.cellWidth, g.cellHeight)]))
  {
  }

  /** Appending icon i's record keeps the records of icons 0 .. i those the layout owes. */
  lemma RecordsStep(icons: seq<IconFile>, g: Grid, i: nat, rs: seq<IconInfo>, rs': seq<IconInfo>)
    requires g.columns > 0 && i < |icons| && Named(icons)
    requires |rs| == i && forall j :: 0 <= j < i ==> rs[j] == ExpectedRecord(icons, g, j)
    requires rs' == rs + [ExpectedRecord(icons, g, i)]
    ensures |rs'| == i + 1 && forall j :: 0 <= j < i + 1 ==> rs'[j] == ExpectedRecord(icons, g, j)
  {
  }

  /** One loop pass on uniform, named input keeps `PlacedUpTo`, now covering icon i too. */
  lemma PlaceUniformStep(icons: seq<IconFile>, g: Grid, i: nat, s: Sheet)
    requires UniformSize(icons) && Named(icons)
    requires g.columns > 0 && g.columns * g.rows >= |icons|
    requires g.cellWidth == icons[0].decoded.value.width && g.cellHeight == icons[0].decoded.value.height
    requires i < |icons| && PlacedUpTo(icons, g, i, s)
    ensures PlaceIcon(s, icons[i], i, g).Ok?
    ensures PlacedUpTo(icons, g, i + 1, PlaceIcon(s, icons[i], i, g).value)
  {
    var img := icons[i].decoded.value;
    assert img.width == g.cellWidth && img.height == g.cellHeight;
    var pasted := PasteIntoCell(g, i, s.image, img);
    PlaceIconSucceeds(s, icons[i], i, g);
    var s' := PlaceIcon(s, icons[i], i, g).value;
    RecordsStep(icons, g, i, s.records, s'.records);
    CellsShowIconsStep(icons, g, i, s.image, pasted);
    RestTransparentStep(g, i, s.image, pasted);
  }

  lemma {:induction false} PlaceUniform(icons: seq<IconFile>, g: Grid, k: nat)
    requires UniformSize(icons) && Named(icons)
    requires g.columns > 0 && g.columns * g.rows >= |icons|
    requires g.cellWidth == icons[0].decoded.value.width && g.cellHeight == icons[0].decoded.value.height
    requires k <= |icons|
    ensures PlaceIcons(icons, g, k).Ok?
    ensures PlacedUpTo(icons, g, k, PlaceIcons(icons, g, k).value)
    decreases k
  {
    if k > 0 {
      PlaceUniform(icons, g, k - 1);
      var s := PlaceIcons(icons, g, k - 1).value;
      PlaceUniformStep(icons, g, k - 1, s);
      assert PlaceIcons(icons, g, k) == PlaceIcon(s, icons[k - 1], k - 1, g);
    }
  }

  /** Uniform, named input is laid out without failure and satisfies `PlacedUpTo` for the whole input. */
  lemma UniformLayout(icons: seq<IconFile>)
    requires UniformSize(icons) && Named(icons)
    ensures CreateSpritesheet(icons).Ok?
    ensures PlacedUpTo(icons, SheetGrid(icons), |icons|, CreateSpritesheet(icons).value)
  {
    var g := SheetGrid(icons);
    GridShape(|icons|);
    PlaceUniform(icons, g, |icons|);
  }

  /**
    For icons of one size with stems: one record per icon in input order, record i naming
    icon i's stem, at column i mod columns and row i div columns, one icon in size.
   */
  lemma UniformLayoutRecords(icons: seq<IconFile>)
    requires UniformSize(icons) && Named(icons)
    ensures CreateSpritesheet(icons).Ok?
    ensures var s := CreateSpritesheet(icons).value;
            var n, w, h := |icons|, icons[0].decoded.value.width, icons[0].decoded.value.height;
            && |s.records| == n
            && forall i :: 0 <= i < n ==>
                 && s.records[i].name == Paths.FileStem(icons[i].path).value
                 && s.records[i].x == (i % Columns(n)) * w
                 && s.records[i].y == (i / Columns(n)) * h
                 && s.records[i].width == w
                 && s.records[i].height == h
  {
    UniformLayout(icons);
    var g := SheetGrid(icons);
    var s := CreateSpritesheet(icons).value;
    forall i | 0 <= i < |icons|
      ensures s.records[i] == ExpectedRecord(icons, g, i)
    {
    }
  }

  /**
    In every successful layout, whatever the icons' sizes, every record rectangle lies
    inside the sheet and two different records never share a pixel: records are cells.
   */
  lemma LayoutRecordsDisjoint(icons: seq<IconFile>)
    requires |icons| > 0 && CreateSpritesheet(icons).Ok?
    ensures var s := CreateSpritesheet(icons).value;
            && (forall i :: 0 <= i < |s.records| ==>
                  s.records[i].x + s.records[i].width <= s.image.width
                  && s.records[i].y + s.records[i].height <= s.image.height)
            && (forall i, j, x, y ::
                  (0 <= i < |s.records| && 0 <= j < |s.records| && InRecord(s.records[i], x, y) && InRecord(s.records[j], x, y))
                  ==> i == j)
  {
    var g := SheetGrid(icons);
    var s := CreateSpritesheet(icons).value;
    PlaceIconsRecords(icons, g, |icons|);
    GridShape(|icons|);
    forall i | 0 <= i < |s.records|
      ensures s.records[i].x + s.records[i].width <= s.image.width
      ensures s.records[i].y + s.records[i].height <= s.image.height
    {
      CellInside(g, i);
    }
    forall i, j, x, y | 0 <= i < |s.records| && 0 <= j < |s.records|
        && InRecord(s.records[i], x, y) && InRecord(s.records[j], x, y)
      ensures i == j
    {
      assert g.InCell(i, x, y) && g.InCell(j, x, y);
      CellsDisjoint(g, i, j, x, y);
    }
  }

  /**
    For icons of one size with stems, the sheet pixel at offset (px, py) from record i's
    origin is icon i's pixel (px, py): the record points at exactly the pixels written.
   */
  lemma UniformLayoutPixels(icons: seq<IconFile>)
    requires UniformSize(icons) && Named(icons)
    ensures CreateSpritesheet(icons).Ok?
    ensures var s := CreateSpritesheet(icons).value;
            && |s.records| == |icons|
            && forall i, px, py :: 0 <= i < |icons| && icons[i].decoded.value.Contains(px, py) ==>
                 && s.image.Contains(s.records[i].x + px, s.records[i].y + py)
                 && At(s.image, s.records[i].x + px, s.records[i].y + py) == At(icons[i].decoded.value, px, py)
  {
    var g, s := UniformCells(icons);
    forall i, px, py | 0 <= i < |icons| && icons[i].decoded.value.Contains(px, py)
      ensures s.image.Contains(s.records[i].x + px, s.records[i].y + py)
      ensures At(s.image, s.records[i].x + px, s.records[i].y + py) == At(icons[i].decoded.value, px, py)
    {
      assert s.records[i] == ExpectedRecord(icons, g, i);
      assert SameSize(icons[i].decoded.value, icons[0].decoded.value);
      RecordPixel(icons, g, s, i, px, py);
    }
  }

  /** Record i of a finished uniform layout points at icon i's pixel (px, py). */
  lemma RecordPixel(icons: seq<IconFile>, g: Grid, s: Sheet, i: nat, px: nat, py: nat)
    requires g.columns > 0 && i < |icons| && |s.records| == |icons|
    requires icons[i].decoded.Some?
    requires icons[i].decoded.value.width == g.cellWidth && icons[i].decoded.value.height == g.cellHeight
    requires s.records[i].x == g.OriginX(i) && s.records[i].y == g.OriginY(i)
    requires CellsShowIcons(icons, g, |icons|, s.image)
    requires icons[i].decoded.value.Contains(px, py)
    ensures s.image.Contains(s.records[i].x + px, s.records[i].y + py)
    ensures At(s.image, s.records[i].x + px, s.records[i].y + py) == At(icons[i].decoded.value, px, py)
  {
    CellPixel(icons, g, |icons|, s.image, i, px, py);
  }

  /** The part of `UniformLayout` about placed cells and records, on its own. */
  lemma UniformCells(icons: seq<IconFile>) returns (g: Grid, s: Sheet)
    requires UniformSize(icons) && Named(icons)
    ensures g == SheetGrid(icons) && CreateSpritesheet(icons) == Ok(s)
    ensures |s.records| == |icons|
    ensures forall i :: 0 <= i < |icons| ==> s.records[i] == ExpectedRecord(icons, g, i)
    ensures CellsShowIcons(icons, g, |icons|, s.image)
  {
    UniformLayout(icons);
    g := SheetGrid(icons);
    s := CreateSpritesheet(icons).value;
  }

  /**
    For icons of one size with stems, every sheet pixel outside all record rectangles is
    transparent; in particular the unused trailing cells of the grid stay transparent.
   */
  lemma UniformLayoutBackground(icons: seq<IconFile>)
    requires UniformSize(icons) && Named(icons)
    ensures CreateSpritesheet(icons).Ok?
    ensures var s := CreateSpritesheet(icons).value;
            && |s.records| == |icons|
            && forall x, y :: s.image.Contains(x, y) && (forall i :: 0 <= i < |icons| ==> !InRecord(s.records[i], x, y)) ==>
                 At(s.image, x, y) == Transparent
    ensures var s := CreateSpritesheet(icons).value;
            var g := SheetGrid(icons);
            forall c, x, y :: |icons| <= c < g.columns * g.rows && g.InCell(c, x, y) ==>
              s.image.Contains(x, y) && At(s.image, x, y) == Transparent
  {
    UniformLayout(icons);
    var g := SheetGrid(icons);
    var s := CreateSpritesheet(icons).value;
    forall x, y | s.image.Contains(x, y) && (forall i :: 0 <= i < |icons| ==> !InRecord(s.records[i], x, y))
      ensures At(s.image, x, y) == Transparent
    {
      forall i | 0 <= i < |icons| ensures !g.InCell(i, x, y) {
        assert !InRecord(s.records[i], x, y);
      }
    }
    forall c, x, y | |icons| <= c < g.columns * g.rows && g.InCell(c, x, y)
      ensures s.image.Contains(x, y) && At(s.image, x, y) == Transparent
    {
      CellInside(g, c);
      forall i | 0 <= i < |icons| ensures !g.InCell(i, x, y) {
        if g.InCell(i, x, y) {
          CellsDisjoint(g, i, c, x, y);
        }
      }
    }
  }

  /**
    Three 16 x 16 icons whose stems are a, b and c, in that order: a 2 x 2 grid, a 32 x 32
    sheet, and records a at (0, 0), b at (16, 0), c at (0, 16).
   */
  lemma ThreeIconScenario(icons: seq<IconFile>)
    requires |icons| == 3
    requires forall i :: 0 <= i < 3 ==>
               icons[i].decoded.Some? && icons[i].decoded.value.width == 16 && icons[i].decoded.value.height == 16
    requires Paths.FileStem(icons[0].path) == Some("a")
    requires Paths.FileStem(icons[1].path) == Some("b")
    requires Paths.FileStem(icons[2].path) == Some("c")
    ensures CreateSpritesheet(icons).Ok?
    ensures CreateSpritesheet(icons).value.image.width == 32
    ensures CreateSpritesheet(icons).value.image.height == 32
    ensures CreateSpritesheet(icons).value.records ==
              [IconInfo("a", 0, 0, 16, 16), IconInfo("b", 16, 0, 16, 16), IconInfo("c", 0, 16, 16, 16)]
  {
    ThreeIconInput(icons);
    ThreeCells();
    ThreeIconRecords(icons);
  }

  lemma ThreeIconRecords(icons: seq<IconFile>)
    requires |icons| == 3 && UniformSize(icons) && Named(icons)
    requires icons[0].decoded.value.width == 16 && icons[0].decoded.value.height == 16
    requires Paths.FileStem(icons[0].path) == Some("a")
    requires Paths.FileStem(icons[1].path) == Some("b")
    requires Paths.FileStem(icons[2].path) == Some("c")
    ensures CreateSpritesheet(icons).Ok?
    ensures CreateSpritesheet(icons).value.records ==
              [IconInfo("a", 0, 0, 16, 16), IconInfo("b", 16, 0, 16, 16), IconInfo("c", 0, 16, 16, 16)]
  {
    ThreeCells();
    UniformRecord(icons, 0, "a", 0, 0);
    UniformRecord(icons, 1, "b", 16, 0);
    UniformRecord(icons, 2, "c", 0, 16);
    ListOfThree(CreateSpritesheet(icons).value.records);
  }

  /** Cells 0, 1 and 2 of the three-icon grid: (0, 0), (1, 0) and (0, 1). */
  lemma ThreeCells()
    ensures Columns(3) == 2 && Rows(3) == 2
    ensures 0 % Columns(3) == 0 && 0 / Columns(3) == 0
    ensures 1 % Columns(3) == 1 && 1 / Columns(3) == 0
    ensures 2 % Columns(3) == 0 && 2 / Columns(3) == 1
  {
    GridExamples();
  }

  /** Record i of a uniform layout, on its own, given its stem and its cell origin. */
  lemma UniformRecord(icons: seq<IconFile>, i: nat, name: string, x: nat, y: nat)
    requires UniformSize(icons) && Named(icons) && i < |icons|
    requires Paths.FileStem(icons[i].path) == Some(name)
    requires (i % Columns(|icons|)) * icons[0].decoded.value.width == x
    requires (i / Columns(|icons|)) * icons[0].decoded.value.height == y
    ensures CreateSpritesheet(icons).Ok? && |CreateSpritesheet(icons).value.records| == |icons|
    ensures CreateSpritesheet(icons).value.records[i]
              == IconInfo(name, x, y, icons[0].decoded.value.width, icons[0].decoded.value.height)
  {
    UniformLayoutRecords(icons);
  }

  lemma ListOfOne<T>(r: seq<T>)
    requires |r| == 1
    ensures r == [r[0]]
  {
  }

  lemma ListOfThree<T>(r: seq<T>)
    requires |r| == 3
    ensures r == [r[0], r[1], r[2]]
  {
  }

  /** The three-icon input is uniform and named. */
  lemma ThreeIconInput(icons: seq<IconFile>)
    requires |icons| == 3
    requires forall i :: 0 <= i < 3 ==>
               icons[i].decoded.Some? && icons[i].decoded.value.width == 16 && icons[i].decoded.value.height == 16
    requires Paths.FileStem(icons[0].path) == Some("a")
    requires Paths.FileStem(icons[1].path) == Some("b")
    requires Paths.FileStem(icons[2].path) == Some("c")
    ensures UniformSize(icons) && Named(icons)
  {
  }

  /** One 8 x 8 icon: an 8 x 8 sheet that is the icon itself, and one record at (0, 0). */
  lemma SingleIconScenario(icons: seq<IconFile>, img: Image, name: string)
    requires img.width == 8 && img.height == 8
    requires |icons| == 1 && icons[0].decoded == Some(img) && Paths.FileStem(icons[0].path) == Some(name)
    ensures CreateSpritesheet(icons).Ok?
    ensures CreateSpritesheet(icons).value.image.width == 8
    ensures CreateSpritesheet(icons).value.image.height == 8
    ensures CreateSpritesheet(icons).value.records == [IconInfo(name, 0, 0, 8, 8)]
    ensures forall x, y :: img.Contains(x, y) ==> At(CreateSpritesheet(icons).value.image, x, y) == At(img, x, y)
  {
    SingleIconInput(icons, img, name);
    GridExamples();
    UniformLayoutRecords(icons);
    var s := CreateSpritesheet(icons).value;
    assert s.records[0] == IconInfo(name, 0, 0, 8, 8);
    ListOfOne(s.records);
    SingleIconPixels(icons, img);
  }

  lemma SingleIconInput(icons: seq<IconFile>, img: Image, name: string)
    requires |icons| == 1 && icons[0].decoded == Some(img) && Paths.FileStem(icons[0].path) == Some(name)
    ensures UniformSize(icons) && Named(icons)
  {
  }

  /** A single icon lands at the origin of the sheet. */
  lemma SingleIconPixels(icons: seq<IconFile>, img: Image)
    requires |icons| == 1 && icons[0].decoded == Some(img)
    requires UniformSize(icons) && Named(icons)
    ensures CreateSpritesheet(icons).Ok?
    ensures forall x, y :: img.Contains(x, y) ==> At(CreateSpritesheet(icons).value.image, x, y) == At(img, x, y)
  {
    UniformLayoutPixels(icons);
    UniformLayoutRecords(icons);
    GridExamples();
    var s := CreateSpritesheet(icons).value;
    assert s.records[0].x == 0 && s.records[0].y == 0;
    forall x, y | img.Contains(x, y)
      ensures At(s.image, x, y) == At(img, x, y)
    {
      assert s.records[0].x + x == x && s.records[0].y + y == y;
    }
  }
}
